=== FILE: README.md ===
# Currency rate viewer — a Dafny model of its client cache, forms and proxy routes

The viewer shows the latest USD exchange rate of a currency and browses its
daily history. It talks to a third-party financial data provider through two
server routes, and it avoids spending the provider's small daily quota by
caching responses in the browser. This project models the logic of that
application as pure functions over immutable values:

- **The time-boxed cache** (`RateCache`). This is a map from the upper-cased currency code to a payload and
  the millisecond clock reading at which the payload was stored. A read is a
  hit only while `now - timestamp < TTL`. A read that finds a stale entry
  deletes it. A store overwrites the entry and stamps it with the current time.
  The code holds three copies of this cache, and all three are this one
  definition:
  - `useLatestRate`, with a 1-hour TTL;
  - `useHistoricalData`, with a 7-day TTL;
  - the inline copy in `CurrencySearch`, with a 1-hour TTL.
- **The fetch-with-cache transition** (`FetchFlow`). It is instantiated by
  `LatestRateHook`, `HistoricalDataHook` and `CurrencySearch`. The transition
  resets the displayed state and reads the cache. On a miss it issues one
  request and consumes its outcome. The outcome is an ok response, a non-ok
  response, or an exception. Every path clears the loading flag, and the cache
  is written only on success. The clock and the network are parameters. `now`
  is the clock reading at the cache read. `later` is the clock reading when the
  response has arrived. `outcome` is what the request produced.
- **The historical form** (`DateSearch`). Submit first validates the input.
  The displayed rates are the fetched rates whose dates fall in
  `[start, end]`, sorted newest first and cut into pages of 10.
- **The table component** (`HistoricalDataTable`). It shows exactly one of five
  views, chosen in priority order. Its Previous / Next buttons clamp the page
  number.
- **The two proxy routes** (`LatestRateRoute`, `HistoricalRateRoute`, sharing
  `Proxy` and `Json`). Each route is a function from the `currency` query
  parameter and the parsed upstream JSON to a status and a body. The cases are:
  - 400 when the parameter is missing;
  - 429 or 400 when the provider reports an error;
  - 404 when the payload is absent;
  - 200 with the reshaped body otherwise;
  - 500 when the handler throws.
- **JavaScript built-ins the code relies on** (`Js`). These are string
  truthiness, `toUpperCase`, the relational string order, `includes`,
  `Array.prototype.slice`, and array-index keys.

Facts about the code that the model makes explicit:

- `CurrencySearch` renders its error banner and its result card under
  independent conditions. Its submit handler's validation branch sets the
  error and keeps the previous rate, so a call of `handleSubmit` with a code
  that is not three characters long, made after a successful search, shows
  both (`CurrencySearch.ErrorAndCardTogether`). In a browser that branch is
  not reached through the form: the Search button is disabled whenever the
  code is not three characters long, and a form whose default button is
  disabled is not submitted by the Enter key (`CurrencySearch.EnabledSubmitFetches`).
  Only the historical table's views are mutually exclusive.
- The code keeps three cache copies: `useLatestRate`, `useHistoricalData`,
  and the inline copy in `CurrencySearch`, which does not use `useLatestRate`.
- The routes answer 404 only when the whole rate object or series is missing
  or falsy. A rate object without its fields gives a 200 whose fields are
  absent.
- The routes never check that the code has three letters. Only the forms
  check that.
- The page number is reset only on submit and on clear. Narrowing the date
  range after a search can therefore leave the current page past the last
  page. The table then shows no rows, a "Showing 21 to 5 of 5" line, and an
  enabled Next button (`DateSearch.StrandedPageShowsNoRows`).

## Model

| member | source | states |
|---|---|---|
| Js.ToUpperCase | src/hooks/useLatestRate.ts:15 | The key normalisation keeps the length, leaves no lower-case ASCII letter, and changes a character only by lowering its code by 32 when it is a lower-case ASCII letter. |
| Js.UpperIdempotent | src/hooks/useLatestRate.ts:15 | Normalising an already normalised code changes nothing. |
| Js.UpperIgnoresCase | src/hooks/useLatestRate.ts:15 | Two spellings that differ only in letter case normalise to the same key. |
| Js.LessIsLexicographic | src/components/DateSearch.tsx:55 | String `<` holds exactly when the two strings share a prefix and then `a` ends or has the smaller character (both directions). |
| Js.LessTransitive | src/components/DateSearch.tsx:55 | String `<` is transitive. |
| Js.LessTrichotomous | src/components/DateSearch.tsx:55 | Any two strings are equal or ordered one way or the other. |
| Js.AtMostTotal | src/components/DateSearch.tsx:57 | `<=` on date strings is total, so any two rates are comparable by the sort. |
| Js.AtMostTransitive | src/components/DateSearch.tsx:57 | `<=` on date strings is transitive. |
| Js.AtMostAntisymmetric | src/components/DateSearch.tsx:57 | Two date strings each `<=` the other are equal. |
| Js.Truthy | src/hooks/useLatestRate.ts:54 | A possibly absent string is truthy exactly when it is present and non-empty. |
| Js.Less | src/components/DateSearch.tsx:55 | String `<` compares by the first differing character, and a proper prefix comes first; `Js.LessIsLexicographic` states this against an independent first-difference definition. |
| Js.AtMost | src/components/DateSearch.tsx:55 | String `<=` is `!(b < a)`; its order properties are `Js.AtMostTotal`, `Js.AtMostTransitive`, `Js.AtMostAntisymmetric` and `Js.AtMostReflexive`. |
| Js.AtMostReflexive | src/components/DateSearch.tsx:55 | Every string is `<=` itself. |
| Js.Includes | src/app/api/latest-rate/route.ts:32-33 | `includes` searches every starting position; `Js.IncludesIff` states that it holds exactly when the phrase occurs somewhere. |
| Js.IncludesIff | src/app/api/latest-rate/route.ts:32-33 | `includes` holds exactly when the phrase occurs at some index of the message (both directions). |
| Js.IncludesMiddle | src/app/api/latest-rate/route.ts:32-33 | A phrase embedded in a longer message is found by `includes`, at the index right after the text before it. |
| Js.Slice | src/components/DateSearch.tsx:63 | `slice` reads each bound relatively (a negative bound counts back from the end, and both are clamped to the length) and returns the `max(to - from, 0)` elements starting at `from`. For non-negative bounds this is the sub-sequence between the two bounds clamped to the length. |
| Js.NatToString | src/app/api/historical-rate/route.ts:52 | The index key of a string's character is `String(i)`: a non-empty run of decimal digits with no leading zero (other than "0" itself) that reads back as `i`. |
| RateCache.Get | src/hooks/useLatestRate.ts:14-23 | A read hits exactly when the upper-cased key holds an entry with `now - timestamp < ttl`, and then returns that entry's data. Afterwards the key is present exactly on a hit, with its entry untouched. No other key changes. |
| RateCache.Put | src/hooks/useLatestRate.ts:25-30 | A store puts `(data, now)` under the upper-cased key, whatever was there before. No other key changes. |
| RateCache.AbsentKeyUnchanged | src/hooks/useLatestRate.ts:15-22 | Reading an uncached code misses and leaves the cache identical. |
| RateCache.StaleEntryEvicted | src/hooks/useLatestRate.ts:16-21 | Reading a stale entry misses and removes exactly that entry. |
| RateCache.StoreThenGet | src/hooks/useLatestRate.ts:14-30 | Round trip: a store, then a read under any spelling of the same code within the TTL, returns the stored data. |
| RateCache.StoreThenExpire | src/hooks/useLatestRate.ts:16-21 | Once the TTL has elapsed since the store, the same read misses and drops the entry. |
| RateCache.GetIdempotent | src/hooks/useLatestRate.ts:14-23 | Reading twice at the same instant is the same as reading once. |
| RateCache.KeyIgnoresCase | src/hooks/useLatestRate.ts:15-26 | "eur" and "EUR" meet at the key "EUR". |
| FetchFlow.Begin | src/hooks/useLatestRate.ts:34-45 | A request is issued exactly on a miss, for the upper-cased code, with the state loading and empty. On a hit the cached data is shown, flagged as from the cache, with nothing loading, no error and the cache unchanged. |
| FetchFlow.Settle | src/hooks/useLatestRate.ts:47-66 | After the response, loading is off on every path. Success shows the payload and caches it stamped `later`. Failure sets the error message and leaves the cache as it was. |
| FetchFlow.Fetch | src/hooks/useLatestRate.ts:32-69 | One whole invocation. Loading ends false. A request is issued exactly on a miss. Each path has its exact final state (hit, success, failure). The cache gains an entry only after a successful request. |
| FetchFlow.ClearData | src/hooks/useLatestRate.ts:72-76 | `clearData` (the same in `useHistoricalData.ts` lines 75-79) drops the data, the error and the cache flag, and keeps the cache and the loading flag. |
| FetchFlow.FailureMessage | src/hooks/useLatestRate.ts:53-63 | A non-ok response reports the body's `error` when it is a non-empty string, else the fallback text. An exception reports its message, or "An unexpected error occurred." when it is not an `Error`. The message is empty only if the fallback is, or an `Error` had an empty message. |
| FetchFlow.FailureShowsMessage | src/hooks/useLatestRate.ts:53-54 | A non-ok response always leaves a non-empty error, because the fallback text is used when the body has no error string. |
| FetchFlow.SecondFetchHits | src/hooks/useLatestRate.ts:39-45 | After a successful fetch, a fetch within the TTL for any spelling of the code makes no request and shows the same payload from the cache. |
| FetchFlow.ExpiredFetchRefreshes | src/hooks/useLatestRate.ts:16-59 | After the TTL, the next fetch makes exactly one request, and on success it overwrites the entry. |
| LatestRateHook.FetchLatestRate | src/hooks/useLatestRate.ts:4-69 | The latest-rate instance. A hit happens exactly while `now - timestamp < 3_600_000`. A failed request leaves `result.error`, or "Failed to fetch currency rate.", or the exception text, and no cache write. Success caches the payload. |
| LatestRateHook.OneHourBoundary | src/hooks/useLatestRate.ts:4-16 | An entry is served at 3_599_999 ms of age and refetched at exactly 3_600_000 ms. |
| LatestRateHook.LowerCaseLookupHits | src/hooks/useLatestRate.ts:15-26 | After fetching "EUR", fetching "eur" within the hour is served from the cache. |
| HistoricalDataHook.FetchHistoricalData | src/hooks/useHistoricalData.ts:6-73 | The historical instance. A hit happens exactly while `now - timestamp < 604_800_000`. The fallback text is "Failed to fetch historical data.". The cache is written only on success. |
| HistoricalDataHook.SevenDayBoundary | src/hooks/useHistoricalData.ts:6-20 | An entry is served at 604_799_999 ms of age and refetched at exactly 604_800_000 ms. |
| CurrencySearch.TypeCode | src/components/CurrencySearch.tsx:110 | Typed input is stored upper-cased. |
| CurrencySearch.Submit | src/components/CurrencySearch.tsx:46-85 | A code whose length is not 3 only sets "Please enter a valid 3-letter currency code.": no cache read, no request, no change to loading. Any other code gives exactly `useLatestRate`'s fetch. |
| CurrencySearch.Clear | src/components/CurrencySearch.tsx:87-92 | Clear empties the code, the rate, the error and the cache flag, and keeps the cache. |
| CurrencySearch.Render | src/components/CurrencySearch.tsx:116-181 | The error banner shows exactly when the error is a non-empty string, and the skeleton exactly while loading. The result card shows exactly when there is a rate and nothing is loading, and the "from cache" note exactly with the card when the rate came from the cache. The empty prompt shows exactly when there is no rate, no error and no loading. The hint counts `3 - length` missing characters for a code of length 1 or 2 and is absent otherwise. The card and the prompt never show together. Search is enabled exactly for a 3-character code while idle. |
| CurrencySearch.SubmitEnabled | src/components/CurrencySearch.tsx:124 | Search is enabled when nothing is loading and the code has length 3; `CurrencySearch.EnabledSubmitFetches` relates it to the handler. |
| CurrencySearch.ClearShowsEmptyPrompt | src/components/CurrencySearch.tsx:87-92 | After Clear, with nothing loading, only the empty prompt shows: no banner, no card, no skeleton and no character hint. |
| CurrencySearch.EnabledSubmitFetches | src/components/CurrencySearch.tsx:124 | While the Search button is enabled, a submit is the hook's fetch and never hits the validation branch. |
| CurrencySearch.SettledShowsOnePanel | src/components/CurrencySearch.tsx:132-181 | After a submit that reached the fetch, exactly one of error, card and prompt is visible and the skeleton is not. The exception is a failure whose text is empty. |
| CurrencySearch.ErrorAndCardTogether | src/components/CurrencySearch.tsx:132-146 | `handleSubmit` called with a code whose length is not 3, after a successful search, shows the error banner and the result card together. Through the form this branch is not reachable, because the button is then disabled. |
| DateSearch.TypeCode | src/components/DateSearch.tsx:86 | Typed input is stored upper-cased; nothing else changes. |
| DateSearch.PickStartDate | src/components/DateSearch.tsx:105 | Picking a start date changes only the start date, not the page. |
| DateSearch.PickEndDate | src/components/DateSearch.tsx:123 | Picking an end date changes only the end date, not the page. |
| DateSearch.Submit | src/components/DateSearch.tsx:25-39 | A wrong-length code or an empty date raises the first alert. `start > end` in string order raises the second alert. In both cases nothing changes and nothing is fetched. A valid form resets the page to 1 and then does exactly the hook's fetch. A request is issued only for a valid form. |
| DateSearch.Clear | src/components/DateSearch.tsx:41-47 | Clear empties the code and both dates, resets the page to 1, clears the data, and keeps the cache. |
| DateSearch.SubmitEnabled | src/components/DateSearch.tsx:132-134 | "Get Data" is enabled when nothing is loading, the code has length 3 and both dates are non-empty; `DateSearch.EnabledSubmitPassesFirstCheck` relates it to the handler. |
| DateSearch.ClearShowsIdlePrompt | src/components/DateSearch.tsx:41-47 | After Clear, with nothing loading, the table shows its idle prompt: the code and the data are gone. |
| DateSearch.EnabledSubmitPassesFirstCheck | src/components/DateSearch.tsx:132-134 | An enabled "Get Data" button never raises the missing-input alert. |
| DateSearch.KeepInRange | src/components/DateSearch.tsx:53-56 | Each rate occurs in the result as often as in the input if `start <= date <= end`, and not at all otherwise. |
| DateSearch.BoundsInclusive | src/components/DateSearch.tsx:55 | A rate dated exactly on the start or the end of a valid range is in range and is kept: both bounds are inclusive. |
| DateSearch.InsertDesc | src/components/DateSearch.tsx:57 | Insertion adds exactly the one rate to the multiset. |
| DateSearch.SortDesc | src/components/DateSearch.tsx:57 | The sort is a permutation of its input. |
| DateSearch.InsertDescSorted | src/components/DateSearch.tsx:57 | Inserting into a newest-first list keeps it newest first. |
| DateSearch.SortDescSorted | src/components/DateSearch.tsx:57 | The sort's result is newest first. |
| DateSearch.FilteredRates | src/components/DateSearch.tsx:49-58 | The result is empty without data. Otherwise it is exactly the multiset of in-range rates: a rate is kept if and only if it is in range, and it is sorted newest first. |
| DateSearch.TotalPages | src/components/DateSearch.tsx:60 | `ceil(n / 10)`: 0 for no rates, otherwise the least page count whose 10-row pages cover `n`. |
| DateSearch.PageRows | src/components/DateSearch.tsx:61-63 | From page 1 on, the page holds `max(min(10p, n) - 10(p-1), 0)` rates, namely the consecutive rates starting at index `10(p-1)`. |
| DateSearch.PageShape | src/components/DateSearch.tsx:61-63 | Page p in `1..totalPages` is `rates[(p-1)*10 .. min(p*10, n)]`. It is non-empty, has at most 10 rows, and has exactly 10 unless it is the last page. |
| DateSearch.PagePastEndEmpty | src/components/DateSearch.tsx:61-63 | A page past the last page shows no rows. |
| DateSearch.PagesArePrefix | src/components/DateSearch.tsx:60-63 | Pages 1..k laid end to end are the first `min(10k, n)` rates. |
| DateSearch.PagesPartition | src/components/DateSearch.tsx:60-63 | Pages 1..totalPages concatenate to the filtered rates exactly, with no gap and no overlap. |
| DateSearch.TableProps | src/components/DateSearch.tsx:141-156 | The table receives the filtered count, the current page's rows, `ceil(count/10)` pages, the page's start and end indices, the displayed code, the chosen start and end dates, and the hook's loading, error and cache flags. |
| DateSearch.DisplayCode | src/components/DateSearch.tsx:144 | The table is handed the fetched series' code when it is non-empty, otherwise the typed code. It is empty exactly when both are, which selects the idle prompt over "no data". |
| DateSearch.ShowingCountsRows | src/components/HistoricalDataTable.tsx:128-131 | On an in-range page, "Showing X to Y" has `X <= Y` and counts exactly the displayed rows. |
| DateSearch.StrandedPageShowsNoRows | src/components/DateSearch.tsx:58-63 | A page left past the end by a narrower date range renders the table with no rows, with X after Y, and with Next enabled. |
| HistoricalDataTable.Render | src/components/HistoricalDataTable.tsx:42-217 | Exactly one view is shown, chosen in priority order: error, loading, rates present, code present, idle prompt. "Cached" appears only in the data view and exactly when `isFromCache`. The heading names the code handed in. "Showing X to Y of N" has X = startIndex + 1 and Y = min(endIndex, N). Previous is disabled exactly on page 1, and Next exactly on the last page. |
| HistoricalDataTable.Previous | src/components/HistoricalDataTable.tsx:135 | Previous goes to `p - 1` from page 2 on, and otherwise to 1. |
| HistoricalDataTable.Next | src/components/HistoricalDataTable.tsx:143 | Next goes to `p + 1` below the last page, and otherwise to `totalPages`. |
| HistoricalDataTable.PagingStaysInRange | src/components/HistoricalDataTable.tsx:135-145 | If `1 <= p <= totalPages` holds before Previous or Next, it still holds after. |
| HistoricalDataTable.DisabledButtonsAreNoOps | src/components/HistoricalDataTable.tsx:135-145 | For every page number, Previous leaves the page unchanged exactly on page 1 and Next exactly on the last page, which is where each is disabled (both directions). |
| Json.Truthy | src/app/api/latest-rate/route.ts:28 | A property value is truthy unless it is undefined, null, false, 0 or the empty string. |
| Json.Lookup | src/app/api/latest-rate/route.ts:46 | A property read is undefined exactly when no member has the key. Otherwise it returns the value of a member with that key. |
| Json.Prop | src/app/api/latest-rate/route.ts:56-58 | Only an object has the payload's named properties. |
| Proxy.ErrorValue | src/app/api/latest-rate/route.ts:29-30 | The reported value is a truthy `Error Message` if there is one, else a truthy `Note`, else "Unknown API error."; it is truthy in every case. |
| Proxy.Classify | src/app/api/latest-rate/route.ts:28-44 | The error block is skipped exactly when neither `Error Message` nor `Note` is truthy. A reported string gives 429 with the fixed text when it contains a quota phrase, and otherwise 400 "API request failed: " plus the string. A non-string report throws. |
| Proxy.ErrorMessagePreferred | src/app/api/latest-rate/route.ts:29-30 | When both fields carry text, `Error Message` is the text reported. |
| Proxy.QueryFor | src/app/api/latest-rate/route.ts:18-20 | Both routes ask the provider for the upper-cased code against USD; the latest route uses CURRENCY_EXCHANGE_RATE and the historical route FX_DAILY (src/app/api/historical-rate/route.ts:16). |
| LatestRateRoute.HandleGet | src/app/api/latest-rate/route.ts:7-67 | A missing or empty parameter gives 400 with no upstream call. An unreachable upstream, or a throw, gives 500. Error reports are classified before the payload is read. A missing rate object gives 404 quoting the raw code. Otherwise the answer is 200 with fields "1.", "5." and "6.". |
| LatestRateRoute.StatusMeaning | src/app/api/latest-rate/route.ts:11-66 | The status is 200 exactly when there is no error report and a rate object is present. It is 404 exactly when there is no error report and no rate object, and 429 exactly on the rate-limit reply. No other status occurs. |
| LatestRateRoute.EurScenario | src/app/api/latest-rate/route.ts:55-59 | A valid EUR payload gives 200 with "EUR", "1.0850" and "2024-01-15 16:00:01". |
| HistoricalRateRoute.FindKey | src/app/api/historical-rate/route.ts:40-42 | The result is the first key that contains the marker, or none when no key does. |
| HistoricalRateRoute.SeriesKey | src/app/api/historical-rate/route.ts:40-43 | The series is read from the first key that contains the marker, as `find` returns it. With none, it is read from the key "undefined". |
| HistoricalRateRoute.Entries | src/app/api/historical-rate/route.ts:52 | The entries of an object are its members. The entries of a string are its characters under their indices. Other values have no entries. |
| HistoricalRateRoute.ToRates | src/app/api/historical-rate/route.ts:52-57 | The result has one rate per entry, in order, with `date` equal to the entry key and `rate` the formatted "4. close". It fails exactly when some entry is null. |
| HistoricalRateRoute.HandleGet | src/app/api/historical-rate/route.ts:5-70 | A missing parameter gives 400 with no upstream call. Error reports are classified as in the latest route, and throws give 500. No series gives 404 quoting the raw code. A series gives 200 with the reshaped rates and the raw code. |
| HistoricalRateRoute.LookupFirst | src/app/api/historical-rate/route.ts:43 | Reading a key finds the first member carrying it. |
| HistoricalRateRoute.SeriesReshaped | src/app/api/historical-rate/route.ts:40-62 | A series object under a "Time Series FX" key with non-null entries gives 200. The rates match the entries one for one, dated by their keys, and `currencyCode` is the parameter as given. |
| HistoricalRateRoute.QuotaNoteIsRateLimit | src/app/api/historical-rate/route.ts:22-33 | The provider's "25 requests per day" note is recognised as a rate-limit report. |
| HistoricalRateRoute.RateLimitScenario | src/app/api/historical-rate/route.ts:22-33 | A "25 requests per day" note gives 429 with "Alpha Vantage API rate limit exceeded. Try later.". |

## Left out

- Rendering and React mechanics are out: JSX markup, CSS, SVG, `useState` / `useRef` / `useCallback` / `useMemo` and re-render timing. Component state is a record, and each handler is a function on it.
- Asynchronous interleaving is out: each submit is atomic. React's batching of the state updates made before the `await` is taken as given, so only the final state of each path is modelled. Overlapping requests and responses that arrive after a newer submit are not modelled.
- `fetch`, `response.json()` and `Date.now()` are parameters: an outcome value, the parsed upstream object, and the `now` / `later` clock readings. The route's Next.js `revalidate` caching is not modelled.
- Number formatting is out of the model. The historical route's `parseFloat(...).toFixed(6)` is the function parameter `format`. `usdRate` and `rate` are opaque strings. The display's `.toFixed(4)` and the locale date formatting are not modelled.
- String length and string indices count Unicode scalar values, while JavaScript's `.length` and indices count UTF-16 code units. A character outside the Basic Multilingual Plane counts once in the model and twice in JavaScript. So a code such as "A" followed by an emoji has length 2 here and 3 in the browser: the forms' length checks and the historical route's `Object.entries` of a string agree with the code only for characters inside that plane.
- `toUpperCase` covers ASCII letters only. Other Unicode case mappings are not modelled.
- String order compares Unicode scalar values. JavaScript compares UTF-16 code units. The two differ only for characters outside the Basic Multilingual Plane. `localeCompare` in the sort is read as this plain order, which agrees with it for `YYYY-MM-DD` dates.
- Upstream JSON is limited to null, booleans, integers, strings and objects. Arrays and fractional numbers are not modelled. A top-level answer that is not an object is not modelled. The key order of `Object.keys` is taken as the members' order, so the hoisting of integer-like keys is not modelled. A parsed object never repeats a key, so the model's read of the first member with a key is the read of the only one.
- The environment's API key, `console.error`, URL encoding of the code in the upstream query, and the browser's `alert` are out. An alert is modelled as its text.
- The inputs' `maxLength={3}` and the date inputs' `min` / `max` hints are browser constraints and are not modelled. Codes and dates of any length are accepted, which is why the handlers' own checks matter.
- The hint "Enter N more character(s)" is modelled as the number N. Its plural wording is not modelled.
- `src/components/AppContainer.tsx`, `src/app/page.tsx` and `src/app/layout.tsx` are not part of this model. They hold a two-tab toggle, whose remount discards the forms' caches, and static markup.
- `src/types/currency.ts` is mirrored as the datatypes in `CurrencyTypes`. The `CacheEntry` interfaces are `RateCache.Entry`.
- DateSearch.PagePastEndEmpty: it is stated for pages past the end only. A page number of 0 or less is not reachable through the buttons.

=== FILE: currency_search.dfy ===
/**
 * `CurrencySearch`: the latest-rate form. It carries its own copy of the
 * one-hour cache and of the fetch transition; the model builds it from the
 * shared definitions and proves that a valid submit behaves exactly like
 * `useLatestRate`'s `fetchLatestRate`.
 */
module CurrencySearch {
  import opened Wrappers
  import Js
  import opened CurrencyTypes
  import opened RateCache
  import opened FetchFlow
  import LatestRateHook

  /** The inline copy's cache lifetime: one hour, in milliseconds. */
  const CACHE_DURATION: int := 60 * 60 * 1000

  const FETCH_FAILED := "Failed to fetch currency rate."
  const INVALID_CODE := "Please enter a valid 3-letter currency code."

  /** The typed code and the form's copy of the rate state and cache. */
  datatype State = State(code: string, session: Session<CurrencyRate>)

  datatype Submitted = Submitted(state: State, request: Option<string>)

  /** Typing stores the upper-cased text. */
  function TypeCode(st: State, input: string): (r: State)
    ensures r.code == Js.ToUpperCase(input) && r.session == st.session
  {
    st.(code := Js.ToUpperCase(input))
  }

  /** The Search button is enabled. */
  predicate SubmitEnabled(st: State) {
    !(st.session.isLoading || |st.code| != 3)
  }

  /** `handleSubmit`. */
  function Submit(st: State, now: int, later: int, outcome: Outcome<CurrencyRate>): (r: Submitted)
    // a code that is not three characters long: only the error message changes; no cache read, no request
    ensures |st.code| != 3 ==>
              r == Submitted(st.(session := st.session.(error := Some(INVALID_CODE))), None)
    // a three-character code: exactly `fetchLatestRate` of the hook
    ensures |st.code| == 3 ==>
              && r.state.code == st.code
              && Step(r.state.session, r.request) == LatestRateHook.FetchLatestRate(st.session, st.code, now, later, outcome)
  {
    if |st.code| != 3 then Submitted(st.(session := st.session.(error := Some(INVALID_CODE))), None)
    else
      var step := Fetch(st.session, st.code, now, later, outcome, CACHE_DURATION, FETCH_FAILED);
      Submitted(st.(session := step.session), step.request)
  }

  /** `handleClear`: empty the code and forget the result; the cache and the loading flag are kept. */
  function Clear(st: State): (r: State)
    ensures r.code == ""
    ensures r.session.data == None && r.session.error == None && !r.session.isFromCache
    ensures r.session.cache == st.session.cache && r.session.isLoading == st.session.isLoading
  {
    State("", ClearData(st.session))
  }

  /** Which parts of the card are on screen. */
  datatype Panels = Panels(
    errorBanner: bool,
    skeleton: bool,
    resultCard: bool,
    cacheNote: bool,
    emptyPrompt: bool,
    charactersLeft: Option<int>,
    submitEnabled: bool)

  /** The render conditions of the component. */
  function Render(st: State): (p: Panels)
    // each panel's own condition, both ways
    ensures p.errorBanner <==> Js.Truthy(st.session.error)
    ensures p.skeleton <==> st.session.isLoading
    ensures p.resultCard <==> st.session.data.Some? && !st.session.isLoading
    ensures p.cacheNote <==> p.resultCard && st.session.isFromCache
    ensures p.emptyPrompt <==> st.session.data.None? && !Js.Truthy(st.session.error) && !st.session.isLoading
    // the hint counts the characters still missing from a partly typed code
    ensures p.charactersLeft == if 0 < |st.code| < 3 then Some(3 - |st.code|) else None
    // how the panels relate to one another
    ensures !(p.resultCard && p.emptyPrompt)
    ensures p.skeleton ==> !p.resultCard && !p.emptyPrompt
    ensures p.errorBanner ==> !p.emptyPrompt
    ensures p.submitEnabled <==> |st.code| == 3 && !st.session.isLoading
    ensures p.charactersLeft.Some? ==> 0 < p.charactersLeft.value < 3
  {
    var s := st.session;
    var card := s.data.Some? && !s.isLoading;
    Panels(
      Js.Truthy(s.error),
      s.isLoading,
      card,
      card && s.isFromCache,
      s.data.None? && !Js.Truthy(s.error) && !s.isLoading,
      if 0 < |st.code| < 3 then Some(3 - |st.code|) else None,
      SubmitEnabled(st))
  }

  /** While the Search button is enabled, a submit never takes the validation branch. */
  lemma EnabledSubmitFetches(st: State, now: int, later: int, outcome: Outcome<CurrencyRate>)
    requires Render(st).submitEnabled
    ensures Step(Submit(st, now, later, outcome).state.session, Submit(st, now, later, outcome).request)
            == LatestRateHook.FetchLatestRate(st.session, st.code, now, later, outcome)
  {
  }

  /**
   * After a submit that reached the fetch, exactly one of the error banner,
   * the result card and the empty prompt is on screen, and never the
   * skeleton, unless the failure text itself was empty.
   */
  lemma SettledShowsOnePanel(st: State, now: int, later: int, outcome: Outcome<CurrencyRate>)
    requires |st.code| == 3
    requires outcome != Raised(Some(""))
    ensures var p := Render(Submit(st, now, later, outcome).state);
            && !p.skeleton
            && (if p.errorBanner then 1 else 0) + (if p.resultCard then 1 else 0) + (if p.emptyPrompt then 1 else 0) == 1
  {
  }

  /**
   * The error banner and the result card are independent conditions: a
   * rejected submit after a successful search shows both.
   */
  lemma ErrorAndCardTogether(rate: CurrencyRate, cache: Cache<CurrencyRate>, now: int, later: int, outcome: Outcome<CurrencyRate>)
    ensures var st := State("EU", Session(Some(rate), false, None, false, cache));
            var p := Render(Submit(st, now, later, outcome).state);
            p.errorBanner && p.resultCard
  {
  }

  /** Clear's partner: once nothing is loading, a cleared form shows only the empty prompt. */
  lemma ClearShowsEmptyPrompt(st: State)
    requires !st.session.isLoading
    ensures var p := Render(Clear(st));
            p.emptyPrompt && !p.errorBanner && !p.resultCard && !p.skeleton && p.charactersLeft.None?
  {
  }
}

=== FILE: currency_types.dfy ===
/** The payload shapes the client keeps and caches (src/types/currency.ts). */
module CurrencyTypes {

  /** One point-in-time snapshot: 1 unit of `currencyCode` is worth `usdRate` US dollars. */
  datatype CurrencyRate = CurrencyRate(currencyCode: string, usdRate: string, lastRefreshed: string)

  /** One daily closing rate; `date` is a `YYYY-MM-DD` string, `rate` an already formatted decimal. */
  datatype HistoricalRate = HistoricalRate(date: string, rate: string)

  /** A fetched series, in the order the proxy produced it (not necessarily sorted). */
  datatype HistoricalData = HistoricalData(currencyCode: string, rates: seq<HistoricalRate>)
}

=== FILE: date_search.dfy ===
/**
 * `DateSearch`: the historical-rate form. Its submit handler validates the
 * code and the date range before fetching; the rates shown are the fetched
 * series restricted to the chosen range, sorted newest first, and cut into
 * pages of ten.
 */
module DateSearch {
  import opened Wrappers
  import Js
  import opened CurrencyTypes
  import opened FetchFlow
  import HistoricalDataHook
  import Table = HistoricalDataTable

  const RATES_PER_PAGE: int := 10

  const MISSING_INPUT := "Please enter a 3-letter currency code, start date, and end date."
  const START_AFTER_END := "Error: Start date cannot be after the end date."

  /** The form's own state plus the historical-data hook it drives. */
  datatype State = State(code: string, startDate: string, endDate: string, currentPage: int, session: Session<HistoricalData>)

  /** The state after a submit, the alert shown (if any), and the code requested from the proxy (if any). */
  datatype Submitted = Submitted(state: State, alert: Option<string>, request: Option<string>)

  // ---------------------------------------------------------------------------
  // Input and submit

  /** Typing in the code field stores the upper-cased text. */
  function TypeCode(st: State, input: string): (r: State)
    ensures r.code == Js.ToUpperCase(input)
    ensures r.(code := st.code) == st
  {
    st.(code := Js.ToUpperCase(input))
  }

  /** Picking a start date; the page number is left as it was. */
  function PickStartDate(st: State, date: string): (r: State)
    ensures r.startDate == date && r.(startDate := st.startDate) == st
  {
    st.(startDate := date)
  }

  /** Picking an end date; the page number is left as it was. */
  function PickEndDate(st: State, date: string): (r: State)
    ensures r.endDate == date && r.(endDate := st.endDate) == st
  {
    st.(endDate := date)
  }

  /** The submit button is enabled. */
  predicate SubmitEnabled(st: State) {
    !(st.session.isLoading || |st.code| != 3 || st.startDate == "" || st.endDate == "")
  }

  /** `handleSubmit`: validate, reset to the first page, fetch. */
  function Submit(st: State, now: int, later: int, outcome: Outcome<HistoricalData>): (r: Submitted)
    // a wrong-length code or a missing date: alert, nothing else happens
    ensures |st.code| != 3 || st.startDate == "" || st.endDate == "" ==>
              r == Submitted(st, Some(MISSING_INPUT), None)
    // a start date after the end date (string order): alert, nothing else happens
    ensures |st.code| == 3 && st.startDate != "" && st.endDate != "" && Js.Less(st.endDate, st.startDate) ==>
              r == Submitted(st, Some(START_AFTER_END), None)
    // otherwise: no alert, back to page one, and exactly the hook's fetch for the code
    ensures |st.code| == 3 && st.startDate != "" && st.endDate != "" && Js.AtMost(st.startDate, st.endDate) ==>
              && r.alert.None?
              && r.state.currentPage == 1
              && (r.state.code, r.state.startDate, r.state.endDate) == (st.code, st.startDate, st.endDate)
              && Step(r.state.session, r.request) == HistoricalDataHook.FetchHistoricalData(st.session, st.code, now, later, outcome)
    // a request is only ever issued for a valid form
    ensures r.request.Some? ==> |st.code| == 3 && st.startDate != "" && st.endDate != "" && Js.AtMost(st.startDate, st.endDate)
  {
    if |st.code| != 3 || st.startDate == "" || st.endDate == "" then Submitted(st, Some(MISSING_INPUT), None)
    else if Js.Less(st.endDate, st.startDate) then Submitted(st, Some(START_AFTER_END), None)
    else
      var step := HistoricalDataHook.FetchHistoricalData(st.session, st.code, now, later, outcome);
      Submitted(st.(currentPage := 1, session := step.session), None, step.request)
  }

  /** `handleClear`: empty the inputs, forget the displayed data, back to page one; the cache survives. */
  function Clear(st: State): (r: State)
    ensures r.code == "" && r.startDate == "" && r.endDate == "" && r.currentPage == 1
    ensures r.session.data == None && r.session.error == None && !r.session.isFromCache
    ensures r.session.cache == st.session.cache && r.session.isLoading == st.session.isLoading
  {
    State("", "", "", 1, ClearData(st.session))
  }

  /** A rate dated exactly on either bound of a valid range is kept: both bounds are inclusive. */
  lemma BoundsInclusive(x: HistoricalRate, startDate: string, endDate: string)
    requires Js.AtMost(startDate, endDate)
    requires x.date == startDate || x.date == endDate
    ensures InRange(x, startDate, endDate)
    ensures x in KeepInRange([x], startDate, endDate)
  {
    Js.AtMostReflexive(x.date);
    assert multiset(KeepInRange([x], startDate, endDate))[x] == 1;
  }

  /** An enabled submit button never runs into the first validation alert. */
  lemma EnabledSubmitPassesFirstCheck(st: State, now: int, later: int, outcome: Outcome<HistoricalData>)
    requires SubmitEnabled(st)
    ensures Submit(st, now, later, outcome).alert != Some(MISSING_INPUT)
  {
  }

  // ---------------------------------------------------------------------------
  // Filtering

  /** `rate.date >= startDate && rate.date <= endDate`, in string order. */
  predicate InRange(r: HistoricalRate, startDate: string, endDate: string) {
    Js.AtMost(startDate, r.date) && Js.AtMost(r.date, endDate)
  }

  /** `rates.filter(...)`: the rates whose date lies in the range, each as often as in the input. */
  function KeepInRange(rates: seq<HistoricalRate>, startDate: string, endDate: string): (r: seq<HistoricalRate>)
    ensures forall x :: multiset(r)[x] == if InRange(x, startDate, endDate) then multiset(rates)[x] else 0
    decreases |rates|
  {
    if |rates| == 0 then []
    else
      assert rates == [rates[0]] + rates[1..];
      (if InRange(rates[0], startDate, endDate) then [rates[0]] else []) + KeepInRange(rates[1..], startDate, endDate)
  }

  // ---------------------------------------------------------------------------
  // Sorting, newest first

  /** Dates never increase along the sequence. */
  ghost predicate SortedDesc(s: seq<HistoricalRate>) {
    forall i, j :: 0 <= i < j < |s| ==> Js.AtMost(s[j].date, s[i].date)
  }

  /** Inserts `x` in front of the first rate whose date is not after `x`'s. */
  function InsertDesc(x: HistoricalRate, s: seq<HistoricalRate>): (r: seq<HistoricalRate>)
    ensures multiset(r) == multiset(s) + multiset{x}
    decreases |s|
  {
    if |s| == 0 then [x]
    else if Js.AtMost(s[0].date, x.date) then [x] + s
    else
      assert s == [s[0]] + s[1..];
      [s[0]] + InsertDesc(x, s[1..])
  }

  /** `.sort((a, b) => b.date.localeCompare(a.date))`, with `localeCompare` read as string order. */
  function SortDesc(s: seq<HistoricalRate>): (r: seq<HistoricalRate>)
    ensures multiset(r) == multiset(s)
    decreases |s|
  {
    if |s| == 0 then []
    else
      assert s == [s[0]] + s[1..];
      InsertDesc(s[0], SortDesc(s[1..]))
  }

  lemma {:induction false} InsertDescSorted(x: HistoricalRate, s: seq<HistoricalRate>)
    requires SortedDesc(s)
    ensures SortedDesc(InsertDesc(x, s))
    decreases |s|
  {
    if |s| == 0 {
    } else if Js.AtMost(s[0].date, x.date) {
      var r := InsertDesc(x, s);
      assert r == [x] + s;
      forall j | 0 <= j < |s|
        ensures Js.AtMost(s[j].date, x.date)
      {
        if j > 0 {
          Js.AtMostTransitive(s[j].date, s[0].date, x.date);
        }
      }
    } else {
      var rest := InsertDesc(x, s[1..]);
      assert SortedDesc(s[1..]);
      InsertDescSorted(x, s[1..]);
      Js.AtMostTotal(s[0].date, x.date);
      forall k | 0 <= k < |rest|
        ensures Js.AtMost(rest[k].date, s[0].date)
      {
        assert rest[k] in multiset(rest);
        if rest[k] != x {
          assert rest[k] in multiset(s[1..]);
          var m :| 0 <= m < |s[1..]| && s[1..][m] == rest[k];
          assert s[m + 1] == rest[k];
        }
      }
      assert InsertDesc(x, s) == [s[0]] + rest;
    }
  }

  lemma {:induction false} SortDescSorted(s: seq<HistoricalRate>)
    ensures SortedDesc(SortDesc(s))
    decreases |s|
  {
    if |s| > 0 {
      SortDescSorted(s[1..]);
      InsertDescSorted(s[0], SortDesc(s[1..]));
    }
  }

  /**
   * `filteredRates`: nothing without data; otherwise exactly the in-range rates
   * (each with its multiplicity, none dropped, none added), newest first.
   */
  function FilteredRates(data: Option<HistoricalData>, startDate: string, endDate: string): (r: seq<HistoricalRate>)
    ensures data.None? ==> r == []
    ensures data.Some? ==>
              forall x :: multiset(r)[x] == if InRange(x, startDate, endDate) then multiset(data.value.rates)[x] else 0
    ensures data.Some? ==> forall x :: x in r <==> x in data.value.rates && InRange(x, startDate, endDate)
    ensures SortedDesc(r)
  {
    match data
    case None => []
    case Some(d) =>
      var kept := KeepInRange(d.rates, startDate, endDate);
      SortDescSorted(kept);
      var r := SortDesc(kept);
      assert forall x :: x in r <==> multiset(r)[x] > 0;
      r
  }

  // ---------------------------------------------------------------------------
  // Pagination

  /** `Math.ceil(n / RATES_PER_PAGE)`. */
  function TotalPages(n: nat): (r: nat)
    ensures n == 0 ==> r == 0
    ensures n > 0 ==> (r - 1) * RATES_PER_PAGE < n <= r * RATES_PER_PAGE
  {
    (n + RATES_PER_PAGE - 1) / RATES_PER_PAGE
  }

  function StartIndex(page: int): int {
    (page - 1) * RATES_PER_PAGE
  }

  function EndIndex(page: int): int {
    StartIndex(page) + RATES_PER_PAGE
  }

  /** `filteredRates.slice(startIndex, endIndex)`: the rows of page `page`. */
  function PageRows<T>(rates: seq<T>, page: int): (r: seq<T>)
    // from page 1 on: up to ten consecutive rates starting at `(page - 1) * 10`
    ensures page >= 1 ==> |r| == Js.Max(Js.Min(EndIndex(page), |rates|) - StartIndex(page), 0)
    ensures page >= 1 ==> forall i :: 0 <= i < |r| ==> r[i] == rates[StartIndex(page) + i]
  {
    Js.Slice(rates, StartIndex(page), EndIndex(page))
  }

  /** A page in `1..totalPages` is the next ten rates (or fewer on the last page), never empty. */
  lemma PageShape<T>(rates: seq<T>, page: int)
    requires 1 <= page <= TotalPages(|rates|)
    ensures PageRows(rates, page) == rates[StartIndex(page)..Js.Min(EndIndex(page), |rates|)]
    ensures 0 < |PageRows(rates, page)| <= RATES_PER_PAGE
    ensures page < TotalPages(|rates|) ==> |PageRows(rates, page)| == RATES_PER_PAGE
  {
  }

  /** A page past the last one shows nothing. */
  lemma PagePastEndEmpty<T>(rates: seq<T>, page: int)
    requires page > TotalPages(|rates|)
    ensures PageRows(rates, page) == []
  {
  }

  /** Pages `1..k` laid end to end. */
  function Pages<T>(rates: seq<T>, k: nat): seq<T> {
    if k == 0 then [] else Pages(rates, k - 1) + PageRows(rates, k)
  }

  lemma {:induction false} PagesArePrefix<T>(rates: seq<T>, k: nat)
    requires k <= TotalPages(|rates|)
    ensures Pages(rates, k) == rates[..Js.Min(k * RATES_PER_PAGE, |rates|)]
  {
    if k > 0 {
      PagesArePrefix(rates, k - 1);
      PageShape(rates, k);
      assert rates[..StartIndex(k)] + rates[StartIndex(k)..Js.Min(EndIndex(k), |rates|)]
          == rates[..Js.Min(k * RATES_PER_PAGE, |rates|)];
    }
  }

  /** Pages `1..totalPages` together are exactly the filtered rates, in order, with no gap and no overlap. */
  lemma PagesPartition<T>(rates: seq<T>)
    ensures Pages(rates, TotalPages(|rates|)) == rates
  {
    PagesArePrefix(rates, TotalPages(|rates|));
  }

  // ---------------------------------------------------------------------------
  // What the table is handed

  /**
   * `historicalData?.currencyCode || currencyCode`: the fetched series' code
   * when it has one, else the typed code. It is empty only when both are,
   * which is what sends the table to its idle prompt rather than "no data".
   */
  function DisplayCode(st: State): (r: string)
    ensures st.session.data.Some? && st.session.data.value.currencyCode != "" ==> r == st.session.data.value.currencyCode
    ensures !(st.session.data.Some? && st.session.data.value.currencyCode != "") ==> r == st.code
    ensures r == "" <==> st.code == "" && (st.session.data.None? || st.session.data.value.currencyCode == "")
  {
    if st.session.data.Some? && st.session.data.value.currencyCode != "" then st.session.data.value.currencyCode
    else st.code
  }

  /** The props the form passes to the table component. */
  function TableProps(st: State): (p: Table.Props)
    ensures p.filteredRatesLength == |FilteredRates(st.session.data, st.startDate, st.endDate)|
    ensures p.ratesToDisplay == PageRows(FilteredRates(st.session.data, st.startDate, st.endDate), st.currentPage)
    ensures p.totalPages == TotalPages(p.filteredRatesLength)
    ensures p.currencyCode == DisplayCode(st)
    ensures p.startDate == st.startDate && p.endDate == st.endDate
    ensures p.currentPage == st.currentPage && p.startIndex == StartIndex(st.currentPage) && p.endIndex == EndIndex(st.currentPage)
    ensures p.isLoading == st.session.isLoading && p.error == st.session.error && p.isFromCache == st.session.isFromCache
  {
    var filtered := FilteredRates(st.session.data, st.startDate, st.endDate);
    Table.Props(PageRows(filtered, st.currentPage), |filtered|, DisplayCode(st), st.startDate, st.endDate,
                st.session.isLoading, st.session.error, st.session.isFromCache,
                st.currentPage, TotalPages(|filtered|), StartIndex(st.currentPage), EndIndex(st.currentPage))
  }

  /**
   * On a page in range, the table's "Showing X to Y of N" line counts exactly
   * the rows it displays.
   */
  lemma ShowingCountsRows(st: State)
    requires !Js.Truthy(st.session.error) && !st.session.isLoading
    requires 1 <= st.currentPage <= TotalPages(|FilteredRates(st.session.data, st.startDate, st.endDate)|)
    ensures var v := Table.Render(TableProps(st));
            && v.Table?
            && v.showingFrom <= v.showingTo
            && v.showingTo - v.showingFrom + 1 == |v.rows|
  {
    PageShape(FilteredRates(st.session.data, st.startDate, st.endDate), st.currentPage);
  }

  /**
   * Narrowing the dates after a search does not reset the page: if the page
   * number ends up past the last page, the table still renders, with no rows,
   * a "Showing" start after its end, and Next enabled.
   */
  lemma StrandedPageShowsNoRows(st: State)
    requires !Js.Truthy(st.session.error) && !st.session.isLoading
    requires |FilteredRates(st.session.data, st.startDate, st.endDate)| > 0
    requires st.currentPage > TotalPages(|FilteredRates(st.session.data, st.startDate, st.endDate)|)
    ensures var v := Table.Render(TableProps(st));
            && v.Table?
            && v.rows == []
            && v.showingFrom > v.showingTo
            && v.nextEnabled
  {
    PagePastEndEmpty(FilteredRates(st.session.data, st.startDate, st.endDate), st.currentPage);
  }

  /**
   * Clear's partner: once nothing is loading, a cleared form hands the table
   * an empty code and no data, so the table shows its idle prompt.
   */
  lemma ClearShowsIdlePrompt(st: State)
    requires !st.session.isLoading
    ensures Table.Render(TableProps(Clear(st))).IdlePrompt?
  {
  }
}

=== FILE: fetch_flow.dfy ===
/**
 * The fetch-with-cache transition shared by `fetchLatestRate`,
 * `fetchHistoricalData` and the currency search form's submit handler: a
 * one-shot state machine over the displayed payload, the loading flag, the
 * error message, the "loaded from cache" flag and the cache itself.
 *
 * The clock and the network are parameters: `now` is the clock reading at the
 * cache read, `later` the reading when the response has arrived, and `outcome`
 * what the proxy request produced. The outcome is consumed only on a miss.
 */
module FetchFlow {
  import opened Wrappers
  import Js
  import opened RateCache

  /** The hook's state: `data` is `rateData` / `historicalData`, `cache` the `useRef` map. */
  datatype Session<T> = Session(data: Option<T>, isLoading: bool, error: Option<string>, isFromCache: bool, cache: Cache<T>)

  /**
   * What the proxy request produced: an ok response with its parsed body, a
   * non-ok response whose body may carry an `error` string, or an exception
   * (an `Error` with its message, or some other thrown value).
   */
  datatype Outcome<T> = Ok(payload: T) | NotOk(error: Option<string>) | Raised(message: Option<string>)

  /** The session after a transition and the upper-cased code sent to the proxy, if a request was issued. */
  datatype Step<T> = Step(session: Session<T>, request: Option<string>)

  const UNEXPECTED_ERROR := "An unexpected error occurred."

  /** The fresh-session state the fetch function sets before anything else. */
  function Idle<T>(cache: Cache<T>): Session<T> {
    Session(None, false, None, false, cache)
  }

  /** A read of `code` at `now` finds a fresh entry. */
  predicate Hit<T>(cache: Cache<T>, code: string, now: int, ttl: int) {
    Key(code) in cache && Fresh(cache[Key(code)], now, ttl)
  }

  /**
   * From the top of the fetch function up to the `await`: reset the displayed
   * state, read the cache, and either finish from the cache or issue a request.
   */
  function Begin<T>(s: Session<T>, code: string, now: int, ttl: int): (r: Step<T>)
    ensures r.request.None? <==> Hit(s.cache, code, now, ttl)
    // hit: the cached payload, flagged as from the cache, with nothing loading and nothing requested
    ensures r.request.None? ==> r.session == Idle(s.cache).(data := Some(s.cache[Key(code)].data), isFromCache := true)
    // miss: loading, nothing displayed, one request for the upper-cased code, any stale entry gone
    ensures r.request.Some? ==>
              && r.request.value == Js.ToUpperCase(code)
              && r.session == Idle(s.cache - {Key(code)}).(isLoading := true)
  {
    var lookup := Get(s.cache, code, now, ttl);
    match lookup.value
    case Some(cached) => Step(Idle(lookup.cache).(data := Some(cached), isFromCache := true), None)
    case None => Step(Idle(lookup.cache).(isLoading := true), Some(Js.ToUpperCase(code)))
  }

  /**
   * The message a failed request leaves in `error`: the body's `error` when it is
   * a non-empty string, else the fallback; for an exception its message when it
   * is an `Error`, else the generic text.
   */
  function FailureMessage<T>(outcome: Outcome<T>, fallback: string): (r: string)
    requires !outcome.Ok?
    // a non-ok response: the body's own text wins whenever it has one
    ensures outcome.NotOk? && Js.Truthy(outcome.error) ==> r == outcome.error.value
    ensures outcome.NotOk? && !Js.Truthy(outcome.error) ==> r == fallback
    // an exception: its message, or the generic text when it is not an `Error`
    ensures outcome.Raised? ==> Some(r) == outcome.message || (outcome.message.None? && r == UNEXPECTED_ERROR)
    // so the message is empty only if the fallback is, or an `Error` carried an empty message
    ensures r == "" ==> (outcome.NotOk? && fallback == "") || outcome == Raised(Some(""))
  {
    match outcome
    case NotOk(e) => if Js.Truthy(e) then e.value else fallback
    case Raised(m) => m.GetOr(UNEXPECTED_ERROR)
  }

  /** After the `await`: the `try` / `catch` / `finally` that consumes the outcome. */
  function Settle<T>(pending: Session<T>, code: string, later: int, outcome: Outcome<T>, fallback: string): (r: Session<T>)
    ensures !r.isLoading
    ensures r.isFromCache == pending.isFromCache
    ensures outcome.Ok? ==>
              && r.data == Some(outcome.payload)
              && r.error == pending.error
              && Key(code) in r.cache && r.cache[Key(code)] == Entry(outcome.payload, later)
              && r.cache - {Key(code)} == pending.cache - {Key(code)}
    ensures !outcome.Ok? ==>
              && r.data == pending.data
              && r.error == Some(FailureMessage(outcome, fallback))
              && r.cache == pending.cache
  {
    match outcome
    case Ok(payload) => pending.(data := Some(payload), cache := Put(pending.cache, code, payload, later), isLoading := false)
    case _ => pending.(error := Some(FailureMessage(outcome, fallback)), isLoading := false)
  }

  /** One whole invocation of the fetch function. */
  function Fetch<T>(s: Session<T>, code: string, now: int, later: int, outcome: Outcome<T>, ttl: int, fallback: string): (r: Step<T>)
    // the loading flag is cleared on every exit path
    ensures !r.session.isLoading
    // a request is issued exactly on a miss, for the upper-cased code
    ensures r.request.None? <==> Hit(s.cache, code, now, ttl)
    ensures r.request.Some? ==> r.request.value == Js.ToUpperCase(code)
    // hit: the cached payload, flagged as from the cache, cache unchanged
    ensures r.request.None? ==>
              r.session == Session(Some(s.cache[Key(code)].data), false, None, true, s.cache)
    // miss and success: the payload is shown and cached under the normalised key, stamped `later`
    ensures r.request.Some? && outcome.Ok? ==>
              r.session == Session(Some(outcome.payload), false, None, false, s.cache[Key(code) := Entry(outcome.payload, later)])
    // miss and failure: nothing shown, the error message set, the cache not written
    ensures r.request.Some? && !outcome.Ok? ==>
              r.session == Session(None, false, Some(FailureMessage(outcome, fallback)), false, s.cache - {Key(code)})
    // the cache gains an entry only on a successful request
    ensures !(r.request.Some? && outcome.Ok?) ==> Shrunk(r.session.cache, s.cache)
  {
    var begun := Begin(s, code, now, ttl);
    match begun.request
    case None => begun
    case Some(_) => Step(Settle(begun.session, code, later, outcome, fallback), begun.request)
  }

  /** `clearData`: forget what is displayed; the loading flag and the cache stay as they are. */
  function ClearData<T>(s: Session<T>): (r: Session<T>)
    ensures r.data == None && r.error == None && !r.isFromCache
    ensures r.isLoading == s.isLoading && r.cache == s.cache
  {
    s.(data := None, error := None, isFromCache := false)
  }

  /** A failed request leaves a non-empty error message whenever the failure text is non-empty. */
  lemma FailureShowsMessage<T>(s: Session<T>, code: string, now: int, later: int, e: Option<string>, ttl: int, fallback: string)
    requires fallback != ""
    requires !Hit(s.cache, code, now, ttl)
    ensures Js.Truthy(Fetch(s, code, now, later, NotOk(e), ttl, fallback).session.error)
  {
  }

  /**
   * A successful fetch followed, within the TTL, by a fetch for any spelling of
   * the same code is served from the cache: no request, the same payload.
   */
  lemma SecondFetchHits<T>(s: Session<T>, code: string, other: string, now: int, later: int, payload: T,
                           now2: int, later2: int, outcome2: Outcome<T>, ttl: int, fallback: string)
    requires Key(other) == Key(code)
    requires now2 - later < ttl
    ensures var first := Fetch(s, code, now, later, Ok(payload), ttl, fallback);
            var second := Fetch(first.session, other, now2, later2, outcome2, ttl, fallback);
            first.request.Some? ==>
              && second.request.None?
              && second.session.data == Some(payload)
              && second.session.isFromCache
  {
  }

  /**
   * Once the TTL has elapsed since a successful fetch, the next fetch for the
   * code issues exactly one request, and on success overwrites the entry.
   */
  lemma ExpiredFetchRefreshes<T>(s: Session<T>, code: string, now: int, later: int, payload: T,
                                 now2: int, later2: int, payload2: T, ttl: int, fallback: string)
    requires now2 - later >= ttl
    ensures var first := Fetch(s, code, now, later, Ok(payload), ttl, fallback);
            var second := Fetch(first.session, code, now2, later2, Ok(payload2), ttl, fallback);
            first.request.Some? ==>
              && second.request == Some(Js.ToUpperCase(code))
              && second.session.cache[Key(code)] == Entry(payload2, later2)
  {
  }
}

=== FILE: historical_data_hook.dfy ===
/**
 * `useHistoricalData`: the fetch-with-cache transition over whole rate series,
 * with a seven-day cache lifetime.
 */
module HistoricalDataHook {
  import opened Wrappers
  import Js
  import opened CurrencyTypes
  import opened RateCache
  import opened FetchFlow

  /** Seven days, in milliseconds. */
  const CACHE_DURATION: int := 7 * 24 * 60 * 60 * 1000

  const FETCH_FAILED := "Failed to fetch historical data."

  /** `fetchHistoricalData(code)`. */
  function FetchHistoricalData(s: Session<HistoricalData>, code: string, now: int, later: int, outcome: Outcome<HistoricalData>): (r: Step<HistoricalData>)
    ensures !r.session.isLoading
    // a hit exactly while the entry is strictly younger than seven days
    ensures r.request.None? <==> Key(code) in s.cache && now - s.cache[Key(code)].timestamp < 604_800_000
    ensures r.request.None? ==> r.session.data == Some(s.cache[Key(code)].data) && r.session.isFromCache
    ensures r.request.Some? ==> r.request.value == Js.ToUpperCase(code)
    ensures r.request.Some? && outcome.NotOk? ==>
              && r.session.data == None
              && r.session.error == Some(if Js.Truthy(outcome.error) then outcome.error.value else "Failed to fetch historical data.")
              && Shrunk(r.session.cache, s.cache)
    ensures r.request.Some? && outcome.Raised? ==>
              && r.session.data == None
              && r.session.error == Some(outcome.message.GetOr("An unexpected error occurred."))
              && Shrunk(r.session.cache, s.cache)
    ensures r.request.Some? && outcome.Ok? ==>
              && r.session.data == Some(outcome.payload)
              && !r.session.isFromCache
              && Key(code) in r.session.cache && r.session.cache[Key(code)] == Entry(outcome.payload, later)
  {
    Fetch(s, code, now, later, outcome, CACHE_DURATION, FETCH_FAILED)
  }

  /** The seven-day bound is strict: an entry is served one millisecond before it, and not at it. */
  lemma SevenDayBoundary(s: Session<HistoricalData>, code: string, stored: int, later: int, outcome: Outcome<HistoricalData>)
    requires Key(code) in s.cache && s.cache[Key(code)].timestamp == stored
    ensures FetchHistoricalData(s, code, stored + 604_799_999, later, outcome).request.None?
    ensures FetchHistoricalData(s, code, stored + 604_800_000, later, outcome).request.Some?
  {
  }
}

=== FILE: historical_data_table.dfy ===
/**
 * `HistoricalDataTable`: which of its five mutually exclusive views the table
 * component renders for given props, and the Previous / Next page updates.
 */
module HistoricalDataTable {
  import opened Wrappers
  import Js
  import opened CurrencyTypes

  datatype Props = Props(
    ratesToDisplay: seq<HistoricalRate>,
    filteredRatesLength: int,
    currencyCode: string,
    startDate: string,
    endDate: string,
    isLoading: bool,
    error: Option<string>,
    isFromCache: bool,
    currentPage: int,
    totalPages: int,
    startIndex: int,
    endIndex: int)

  /** The rendered view; the data table carries what the user can read off it. */
  datatype View =
    | ErrorBanner(message: string)
    | Skeleton
    | Table(code: string, rows: seq<HistoricalRate>, cachedBadge: bool, total: int,
            showingFrom: int, showingTo: int, previousEnabled: bool, nextEnabled: bool)
    | NoDataForRange
    | IdlePrompt

  /** The component's branches, tried in order: error, loading, data, a code without data, idle. */
  function Render(p: Props): (v: View)
    ensures v.ErrorBanner? <==> Js.Truthy(p.error)
    ensures v.ErrorBanner? ==> v.message == p.error.value
    ensures v.Skeleton? <==> !Js.Truthy(p.error) && p.isLoading
    ensures v.Table? <==> !Js.Truthy(p.error) && !p.isLoading && p.filteredRatesLength > 0
    ensures v.NoDataForRange? <==>
              !Js.Truthy(p.error) && !p.isLoading && p.filteredRatesLength <= 0 && p.currencyCode != ""
    ensures v.IdlePrompt? <==>
              !Js.Truthy(p.error) && !p.isLoading && p.filteredRatesLength <= 0 && p.currencyCode == ""
    // the table shows the page it was handed, and the "Cached" badge only for cached data
    ensures v.Table? ==> v.rows == p.ratesToDisplay && v.total == p.filteredRatesLength
    ensures v.Table? ==> (v.cachedBadge <==> p.isFromCache)
    // "Showing X to Y of N": Y never exceeds N
    ensures v.Table? ==> v.showingFrom == p.startIndex + 1 && v.showingTo <= p.filteredRatesLength
    ensures v.Table? ==> v.showingTo == p.endIndex || v.showingTo == p.filteredRatesLength
    ensures v.Table? ==> v.showingTo <= p.endIndex
    // the heading names the code the table was handed
    ensures v.Table? ==> v.code == p.currencyCode
    ensures v.Table? ==> (v.previousEnabled <==> p.currentPage != 1)
    ensures v.Table? ==> (v.nextEnabled <==> p.currentPage != p.totalPages)
  {
    if Js.Truthy(p.error) then ErrorBanner(p.error.value)
    else if p.isLoading then Skeleton
    else if p.filteredRatesLength > 0 then
      Table(p.currencyCode, p.ratesToDisplay, p.isFromCache, p.filteredRatesLength,
            p.startIndex + 1, Js.Min(p.endIndex, p.filteredRatesLength),
            p.currentPage != 1, p.currentPage != p.totalPages)
    else if p.currencyCode != "" then NoDataForRange
    else IdlePrompt
  }

  /** The Previous button's update `max(prev - 1, 1)`. */
  function Previous(page: int): (r: int)
    ensures r >= 1
    ensures page >= 2 ==> r == page - 1
    ensures page <= 1 ==> r == 1
  {
    Js.Max(page - 1, 1)
  }

  /** The Next button's update `min(prev + 1, totalPages)`. */
  function Next(page: int, totalPages: int): (r: int)
    ensures r <= totalPages
    ensures page < totalPages ==> r == page + 1
    ensures page >= totalPages ==> r == totalPages
  {
    Js.Min(page + 1, totalPages)
  }

  /** Previous and Next keep a page number that lies in `1..totalPages` inside that range. */
  lemma PagingStaysInRange(page: int, totalPages: int)
    requires 1 <= page <= totalPages
    ensures 1 <= Previous(page) <= totalPages
    ensures 1 <= Next(page, totalPages) <= totalPages
  {
  }

  /**
   * A button is disabled exactly where pressing it would change nothing:
   * Previous (disabled on page 1) moves every other page, and Next (disabled
   * on the last page) moves every other page.
   */
  lemma DisabledButtonsAreNoOps(page: int, totalPages: int)
    ensures Previous(page) == page <==> page == 1
    ensures Next(page, totalPages) == page <==> page == totalPages
  {
  }
}

=== FILE: historical_rate_route.dfy ===
/**
 * `GET /api/historical-rate?currency=<code>`: asks the provider for the
 * code's full daily series against USD and reshapes it into `rates`.
 */
module HistoricalRateRoute {
  import opened Wrappers
  import Js
  import opened CurrencyTypes
  import opened Json
  import opened Proxy

  const SERIES_MARKER := "Time Series FX"
  const CLOSE_KEY := "4. close"
  const INTERNAL_ERROR := "Internal server error during historical data fetch."

  /** The provider function asked for: its daily series against USD. */
  const API_FUNCTION := "FX_DAILY"

  function NotFound(code: string): string {
    "Historical data for '" + code + "' not found."
  }

  /** `Object.keys(data).find(key => key.includes(needle))`. */
  function FindKey(members: seq<Member>, needle: string): (r: Option<string>)
    ensures r.None? <==> forall i :: 0 <= i < |members| ==> !Js.Includes(members[i].key, needle)
    ensures r.Some? ==> exists i :: 0 <= i < |members| && members[i].key == r.value
                                   && Js.Includes(r.value, needle)
                                   && forall j :: 0 <= j < i ==> !Js.Includes(members[j].key, needle)
    decreases |members|
  {
    if |members| == 0 then None
    else if Js.Includes(members[0].key, needle) then Some(members[0].key)
    else
      var r := FindKey(members[1..], needle);
      if r.Some? then
        var i :| 0 <= i < |members[1..]| && members[1..][i].key == r.value
                 && Js.Includes(r.value, needle)
                 && forall j :: 0 <= j < i ==> !Js.Includes(members[1..][j].key, needle);
        assert members[i + 1].key == r.value;
        r
      else r
  }

  /**
   * The key the series is read from: the first key mentioning the marker; with
   * none, `data[undefined]` reads the property named "undefined".
   */
  function SeriesKey(data: seq<Member>): (k: string)
    ensures FindKey(data, SERIES_MARKER).Some? ==> Js.Includes(k, SERIES_MARKER)
    ensures FindKey(data, SERIES_MARKER).Some? ==> k == FindKey(data, SERIES_MARKER).value
    ensures FindKey(data, SERIES_MARKER).None? ==> k == "undefined"
  {
    FindKey(data, SERIES_MARKER).GetOr("undefined")
  }

  /** `Object.entries(v)` of a truthy value: an object's members, a string's characters by index, nothing else. */
  function Entries(v: Json): (r: seq<Member>)
    ensures v.Obj? ==> r == v.members
    ensures v.Str? ==> |r| == |v.s| && forall i :: 0 <= i < |r| ==> r[i] == Member(Js.NatToString(i), Str([v.s[i]]))
    ensures v.Null? || v.Bool? || v.Num? ==> r == []
  {
    match v
    case Obj(members) => members
    case Str(s) => seq(|s|, i requires 0 <= i < |s| => Member(Js.NatToString(i), Str([s[i]])))
    case _ => []
  }

  /**
   * `.map(([date, values]) => ({ date, rate: format(values["4. close"]) }))`;
   * `values["4. close"]` throws on a null value, which yields `None`. The float
   * formatting `parseFloat(..).toFixed(6)` is the parameter `format`.
   */
  function ToRates(entries: seq<Member>, format: Option<Json> -> string): (r: Option<seq<HistoricalRate>>)
    ensures r.None? <==> exists i :: 0 <= i < |entries| && entries[i].value.Null?
    ensures r.Some? ==> |r.value| == |entries|
    ensures r.Some? ==> forall i :: 0 <= i < |entries| ==>
              r.value[i] == HistoricalRate(entries[i].key, format(Prop(entries[i].value, CLOSE_KEY)))
    decreases |entries|
  {
    if |entries| == 0 then Some([])
    else if entries[0].value.Null? then None
    else
      match ToRates(entries[1..], format)
      case None => None
      case Some(rest) =>
        Some([HistoricalRate(entries[0].key, format(Prop(entries[0].value, CLOSE_KEY)))] + rest)
  }

  /** The handler, given the `currency` query parameter, what the upstream request produced, and the rate formatting. */
  function HandleGet(param: Option<string>, upstream: Upstream, format: Option<Json> -> string): (r: Handled)
    // a missing or empty parameter: 400 before any upstream call
    ensures !Js.Truthy(param) ==> r == Handled(Response(400, ErrorBody(MISSING_PARAM)), None)
    // otherwise exactly one upstream call, for the upper-cased code against USD
    ensures Js.Truthy(param) ==> r.query == Some(QueryFor(API_FUNCTION, param.value))
    ensures Js.Truthy(param) && upstream.Unreachable? ==> r.response == Response(500, ErrorBody(INTERNAL_ERROR))
    // an upstream error report is classified as in the latest-rate route
    ensures Js.Truthy(param) && upstream.Parsed? && Classify(upstream.data).Reply? ==>
              r.response == Response(Classify(upstream.data).status, ErrorBody(Classify(upstream.data).error))
    ensures Js.Truthy(param) && upstream.Parsed? && Classify(upstream.data).Throws? ==>
              r.response == Response(500, ErrorBody(INTERNAL_ERROR))
    // no series: 404 naming the code as it was given
    ensures Js.Truthy(param) && upstream.Parsed? && Classify(upstream.data).Clean?
            && !Truthy(Lookup(upstream.data, SeriesKey(upstream.data))) ==>
              r.response == Response(404, ErrorBody(NotFound(param.value)))
    // a series: 200 with one rate per entry and the code exactly as given, unless an entry is null (500)
    ensures Js.Truthy(param) && upstream.Parsed? && Classify(upstream.data).Clean?
            && Truthy(Lookup(upstream.data, SeriesKey(upstream.data))) ==>
              var rates := ToRates(Entries(Lookup(upstream.data, SeriesKey(upstream.data)).value), format);
              r.response == if rates.Some? then Response(200, SeriesBody(param.value, rates.value))
                            else Response(500, ErrorBody(INTERNAL_ERROR))
  {
    if !Js.Truthy(param) then Handled(Response(400, ErrorBody(MISSING_PARAM)), None)
    else
      var query := Some(QueryFor(API_FUNCTION, param.value));
      match upstream
      case Unreachable => Handled(Response(500, ErrorBody(INTERNAL_ERROR)), query)
      case Parsed(data) =>
        match Classify(data)
        case Reply(status, error) => Handled(Response(status, ErrorBody(error)), query)
        case Throws => Handled(Response(500, ErrorBody(INTERNAL_ERROR)), query)
        case Clean =>
          var series := Lookup(data, SeriesKey(data));
          if !Truthy(series) then Handled(Response(404, ErrorBody(NotFound(param.value))), query)
          else
            match ToRates(Entries(series.value), format)
            case None => Handled(Response(500, ErrorBody(INTERNAL_ERROR)), query)
            case Some(rates) => Handled(Response(200, SeriesBody(param.value, rates)), query)
  }

  /**
   * For a series object under a "Time Series FX" key whose entries are all
   * non-null, the answer is 200 with one rate per entry, in entry order, dated
   * by the entry key, and the code echoed as given (not upper-cased).
   */
  lemma SeriesReshaped(param: string, data: seq<Member>, k: nat, format: Option<Json> -> string)
    requires param != ""
    requires Classify(data).Clean?
    requires k < |data| && Js.Includes(data[k].key, SERIES_MARKER) && data[k].value.Obj?
    requires forall j :: 0 <= j < |data| && j != k ==> !Js.Includes(data[j].key, SERIES_MARKER)
    requires forall i :: 0 <= i < |data[k].value.members| ==> !data[k].value.members[i].value.Null?
    ensures var r := HandleGet(Some(param), Parsed(data), format).response;
            var entries := data[k].value.members;
            && r.status == 200
            && r.body.SeriesBody?
            && r.body.seriesCode == param
            && |r.body.rates| == |entries|
            && forall i :: 0 <= i < |entries| ==> r.body.rates[i].date == entries[i].key
  {
    var key := SeriesKey(data);
    assert FindKey(data, SERIES_MARKER) == Some(data[k].key);
    assert Lookup(data, key) == Some(data[k].value) by {
      LookupFirst(data, k);
    }
  }

  /** With distinct keys before it, the member at index `k` is what a read of its key finds. */
  lemma {:induction false} LookupFirst(members: seq<Member>, k: nat)
    requires k < |members|
    requires forall j :: 0 <= j < k ==> members[j].key != members[k].key
    ensures Lookup(members, members[k].key) == Some(members[k].value)
    decreases k
  {
    if k > 0 {
      LookupFirst(members[1..], k - 1);
    }
  }

  /** The quota phrase inside a rate-limit note as the provider words it. */
  const QUOTA_PHRASE := "25 requests per day"
  const QUOTA_NOTE := "Thank you for using Alpha Vantage! Our standard API rate limit is " + QUOTA_PHRASE + "."

  /** The note carries the quota phrase, so it is recognised as a rate-limit report. */
  lemma QuotaNoteIsRateLimit()
    ensures RateLimitText(QUOTA_NOTE)
  {
    Js.IncludesMiddle("Thank you for using Alpha Vantage! Our standard API rate limit is ", QUOTA_PHRASE, ".");
  }

  /** The rate-limit note from the provider becomes a 429 with the fixed text. */
  lemma RateLimitScenario(format: Option<Json> -> string)
    ensures HandleGet(Some("EUR"), Parsed([Member(NOTE_KEY, Str(QUOTA_NOTE))]), format).response
              == Response(429, ErrorBody(RATE_LIMITED))
  {
    var data := [Member(NOTE_KEY, Str(QUOTA_NOTE))];
    QuotaNoteIsRateLimit();
    assert Lookup(data, ERROR_MESSAGE_KEY) == None;
    assert Reported(data, QUOTA_NOTE);
    assert Classify(data) == Reply(429, RATE_LIMITED);
  }
}

=== FILE: js.dfy ===
/**
 * The few JavaScript built-ins the currency viewer relies on, with their
 * ECMAScript meaning written out: string truthiness, `toUpperCase` (ASCII
 * letters only), the relational string comparison `<` / `<=`,
 * `String.prototype.includes`, `Array.prototype.slice` and the decimal
 * rendering of an array index.
 */
module Js {
  import opened Wrappers

  /** A string that may be `null`/`undefined` is truthy exactly when it is present and non-empty. */
  predicate Truthy(s: Option<string>) {
    s.Some? && s.value != ""
  }

  // ---------------------------------------------------------------------------
  // toUpperCase

  predicate IsLower(c: char) {
    'a' <= c <= 'z'
  }

  function UpperChar(c: char): char {
    if IsLower(c) then (c as int - 32) as char else c
  }

  /** `s.toUpperCase()`, restricted to the ASCII letters. */
  function ToUpperCase(s: string): (r: string)
    ensures |r| == |s|
    ensures forall i :: 0 <= i < |r| ==> !IsLower(r[i])
    ensures forall i :: 0 <= i < |r| ==>
              r[i] == s[i] || (IsLower(s[i]) && r[i] as int == s[i] as int - 32)
  {
    seq(|s|, i requires 0 <= i < |s| => UpperChar(s[i]))
  }

  /** Upper-casing a second time changes nothing. */
  lemma UpperIdempotent(s: string)
    ensures ToUpperCase(ToUpperCase(s)) == ToUpperCase(s)
  {
  }

  /** Two strings that differ only in the case of ASCII letters upper-case to the same string. */
  lemma UpperIgnoresCase(a: string, b: string)
    requires |a| == |b|
    requires forall i :: 0 <= i < |a| ==> UpperChar(a[i]) == UpperChar(b[i])
    ensures ToUpperCase(a) == ToUpperCase(b)
  {
  }

  // ---------------------------------------------------------------------------
  // String comparison

  /**
   * `a < b` on strings: the first differing character decides, and a proper
   * prefix comes first.
   */
  predicate Less(a: string, b: string)
    decreases |a|
  {
    if |a| == 0 || |b| == 0 then |a| == 0 && |b| > 0
    else if a[0] == b[0] then Less(a[1..], b[1..])
    else a[0] < b[0]
  }

  /** `a <= b` on strings, which ECMAScript defines as `!(b < a)`. */
  predicate AtMost(a: string, b: string) {
    !Less(b, a)
  }

  /** `a` and `b` agree on their first `k` characters and differ right after. */
  ghost predicate FirstDifference(a: string, b: string, k: int) {
    && 0 <= k && k <= |a| && k <= |b|
    && a[..k] == b[..k]
    && ((k == |a| && k < |b|) || (k < |a| && k < |b| && a[k] < b[k]))
  }

  /** `Less` is the lexicographic order: some prefix is shared and then `a` is shorter or smaller. */
  lemma {:induction false} LessIsLexicographic(a: string, b: string)
    ensures Less(a, b) <==> exists k :: FirstDifference(a, b, k)
    decreases |a|
  {
    if |a| == 0 || |b| == 0 {
      if Less(a, b) {
        assert FirstDifference(a, b, 0);
      }
    } else if a[0] == b[0] {
      LessIsLexicographic(a[1..], b[1..]);
      if Less(a, b) {
        var k :| FirstDifference(a[1..], b[1..], k);
        assert a[..k + 1] == [a[0]] + a[1..][..k];
        assert b[..k + 1] == [b[0]] + b[1..][..k];
        assert FirstDifference(a, b, k + 1);
      }
      if exists k :: FirstDifference(a, b, k) {
        var k :| FirstDifference(a, b, k);
        assert k > 0;
        assert a[1..][..k - 1] == a[1..k];
        assert b[1..][..k - 1] == b[1..k];
        assert a[1..k] == b[1..k] by {
          assert a[..k][1..] == a[1..k];
          assert b[..k][1..] == b[1..k];
        }
        assert FirstDifference(a[1..], b[1..], k - 1);
      }
    } else {
      if Less(a, b) {
        assert FirstDifference(a, b, 0);
      }
      if exists k :: FirstDifference(a, b, k) {
        var k :| FirstDifference(a, b, k);
        assert k > 0 ==> a[..k][0] == b[..k][0];
      }
    }
  }

  lemma {:induction false} LessIrreflexive(a: string)
    ensures !Less(a, a)
    decreases |a|
  {
    if |a| > 0 {
      LessIrreflexive(a[1..]);
    }
  }

  /** `a <= a`: a bound is inside its own range. */
  lemma AtMostReflexive(a: string)
    ensures AtMost(a, a)
  {
    LessIrreflexive(a);
  }

  lemma {:induction false} LessAsymmetric(a: string, b: string)
    ensures Less(a, b) ==> !Less(b, a)
    decreases |a|
  {
    if |a| > 0 && |b| > 0 && a[0] == b[0] {
      LessAsymmetric(a[1..], b[1..]);
    }
  }

  lemma {:induction false} LessTransitive(a: string, b: string, c: string)
    requires Less(a, b) && Less(b, c)
    ensures Less(a, c)
    decreases |a|
  {
    if |a| > 0 && a[0] == b[0] && b[0] == c[0] {
      LessTransitive(a[1..], b[1..], c[1..]);
    }
  }

  /** Any two strings are equal or ordered one way or the other. */
  lemma {:induction false} LessTrichotomous(a: string, b: string)
    ensures a == b || Less(a, b) || Less(b, a)
    decreases |a|
  {
    if |a| > 0 && |b| > 0 && a[0] == b[0] {
      LessTrichotomous(a[1..], b[1..]);
      if a[1..] == b[1..] {
        assert a == [a[0]] + a[1..] && b == [b[0]] + b[1..];
      }
    }
  }

  /** `<=` on strings is a total order. */
  lemma AtMostTotal(a: string, b: string)
    ensures AtMost(a, b) || AtMost(b, a)
  {
    LessAsymmetric(a, b);
  }

  lemma AtMostTransitive(a: string, b: string, c: string)
    requires AtMost(a, b) && AtMost(b, c)
    ensures AtMost(a, c)
  {
    LessTrichotomous(a, b);
    if Less(c, a) && Less(a, b) {
      LessTransitive(c, a, b);
    }
  }

  lemma AtMostAntisymmetric(a: string, b: string)
    requires AtMost(a, b) && AtMost(b, a)
    ensures a == b
  {
    LessTrichotomous(a, b);
  }

  // ---------------------------------------------------------------------------
  // String.prototype.includes

  predicate StartsWith(s: string, prefix: string) {
    |prefix| <= |s| && s[..|prefix|] == prefix
  }

  /** `s.includes(sub)`: `sub` occurs in `s` at some position (the empty string occurs everywhere). */
  predicate Includes(s: string, sub: string)
    decreases |s|
  {
    StartsWith(s, sub) || (|s| > 0 && Includes(s[1..], sub))
  }

  predicate OccursAt(s: string, sub: string, i: int) {
    0 <= i && i + |sub| <= |s| && s[i..i + |sub|] == sub
  }

  /** `sub` placed between `a` and `b` occurs right after `a`, so the whole string includes it. */
  lemma IncludesMiddle(a: string, sub: string, b: string)
    ensures OccursAt(a + sub + b, sub, |a|)
    ensures Includes(a + sub + b, sub)
  {
    var s := a + sub + b;
    assert s[|a|..|a| + |sub|] == sub by {
      assert forall k :: 0 <= k < |sub| ==> s[|a| + k] == sub[k];
    }
    assert OccursAt(s, sub, |a|);
    IncludesIff(s, sub);
  }

  /** `Includes` searches every position: it holds exactly when `sub` occurs at some index of `s`. */
  lemma {:induction false} IncludesIff(s: string, sub: string)
    ensures Includes(s, sub) <==> exists i :: OccursAt(s, sub, i)
    decreases |s|
  {
    if StartsWith(s, sub) {
      assert OccursAt(s, sub, 0);
    } else if |s| > 0 {
      IncludesIff(s[1..], sub);
      if Includes(s[1..], sub) {
        var i :| OccursAt(s[1..], sub, i);
        assert s[1..][i..i + |sub|] == s[i + 1..i + 1 + |sub|];
        assert OccursAt(s, sub, i + 1);
      }
      if exists i :: OccursAt(s, sub, i) {
        var i :| OccursAt(s, sub, i);
        if i > 0 {
          assert s[1..][i - 1..i - 1 + |sub|] == s[i..i + |sub|];
          assert OccursAt(s[1..], sub, i - 1);
        }
      }
    }
  }

  // ---------------------------------------------------------------------------
  // Array.prototype.slice

  function Min(a: int, b: int): int {
    if a <= b then a else b
  }

  function Max(a: int, b: int): int {
    if a <= b then b else a
  }

  /** A relative index as `slice` reads it: negative counts back from the end; the result is clamped to `0..n`. */
  function RelativeIndex(i: int, n: nat): (r: nat)
    ensures r <= n
    ensures 0 <= i ==> r == Min(i, n)
    ensures i < 0 ==> r == Max(n + i, 0)
  {
    if i < 0 then (if n + i < 0 then 0 else n + i) else if i > n then n else i
  }

  /** `s.slice(start, end)` with integer arguments. */
  function Slice<T>(s: seq<T>, start: int, end: int): (r: seq<T>)
    ensures |r| <= |s|
    ensures 0 <= start <= end ==> r == s[Min(start, |s|)..Min(end, |s|)]
    // in general: max(to - from, 0) elements, copied from `from` on, with both bounds read relatively
    ensures |r| == Max(RelativeIndex(end, |s|) - RelativeIndex(start, |s|), 0)
    ensures forall k :: 0 <= k < |r| ==> r[k] == s[RelativeIndex(start, |s|) + k]
  {
    var from := RelativeIndex(start, |s|);
    var to := RelativeIndex(end, |s|);
    if from < to then s[from..to] else []
  }

  // ---------------------------------------------------------------------------
  // Decimal rendering of a natural number (an array index used as a property key)

  function DigitChar(d: nat): (c: char)
    requires d < 10
    ensures '0' <= c <= '9'
  {
    ('0' as int + d) as char
  }

  /** The number a string of decimal digits denotes, most significant digit first. */
  function DecimalValue(s: string): int
    decreases |s|
  {
    if |s| == 0 then 0 else DecimalValue(s[..|s| - 1]) * 10 + (s[|s| - 1] as int - '0' as int)
  }

  /**
   * `String(n)` for an array index: the decimal digits of `n` with no leading
   * zero, which read back as `n`.
   */
  function NatToString(n: nat): (r: string)
    ensures |r| >= 1
    ensures forall i :: 0 <= i < |r| ==> '0' <= r[i] <= '9'
    ensures r[0] == '0' ==> r == "0"
    ensures DecimalValue(r) == n
    decreases n
  {
    if n < 10 then [DigitChar(n)]
    else
      var r := NatToString(n / 10) + [DigitChar(n % 10)];
      assert r[..|r| - 1] == NatToString(n / 10);
      r
  }
}

=== FILE: json.dfy ===
/**
 * The parsed JSON the proxy routes receive from the upstream provider, with
 * JavaScript's property reads and truthiness. An object is its members in
 * key order; a parsed object never repeats a key, and a read takes the first
 * member with the key.
 */
module Json {
  import opened Wrappers

  datatype Json =
    | Null
    | Bool(b: bool)
    | Num(n: int)
    | Str(s: string)
    | Obj(members: seq<Member>)

  datatype Member = Member(key: string, value: Json)

  /** A property value that may be `undefined` (`None`) is truthy unless it is undefined, null, false, 0 or "". */
  predicate Truthy(v: Option<Json>) {
    match v
    case None => false
    case Some(Null) => false
    case Some(Bool(b)) => b
    case Some(Num(n)) => n != 0
    case Some(Str(s)) => s != ""
    case Some(Obj(_)) => true
  }

  /** `obj[key]` on an object's members: the first member with that key, or undefined. */
  function Lookup(members: seq<Member>, key: string): (r: Option<Json>)
    ensures r.None? <==> forall i :: 0 <= i < |members| ==> members[i].key != key
    ensures r.Some? ==> exists i :: 0 <= i < |members| && members[i] == Member(key, r.value)
    decreases |members|
  {
    if |members| == 0 then None
    else if members[0].key == key then Some(members[0].value)
    else Lookup(members[1..], key)
  }

  /** `v[key]` on a non-null value: only an object has such a property. */
  function Prop(v: Json, key: string): (r: Option<Json>)
    ensures !v.Obj? ==> r.None?
    ensures v.Obj? ==> r == Lookup(v.members, key)
  {
    if v.Obj? then Lookup(v.members, key) else None
  }
}

=== FILE: latest_rate_hook.dfy ===
/**
 * `useLatestRate`: the fetch-with-cache transition over single latest-rate
 * records, with a one-hour cache lifetime.
 */
module LatestRateHook {
  import opened Wrappers
  import Js
  import opened CurrencyTypes
  import opened RateCache
  import opened FetchFlow

  /** One hour, in milliseconds. */
  const CACHE_DURATION: int := 60 * 60 * 1000

  const FETCH_FAILED := "Failed to fetch currency rate."

  /** `fetchLatestRate(code)`. */
  function FetchLatestRate(s: Session<CurrencyRate>, code: string, now: int, later: int, outcome: Outcome<CurrencyRate>): (r: Step<CurrencyRate>)
    ensures !r.session.isLoading
    // a hit exactly while the entry is strictly younger than one hour
    ensures r.request.None? <==> Key(code) in s.cache && now - s.cache[Key(code)].timestamp < 3_600_000
    ensures r.request.None? ==> r.session.data == Some(s.cache[Key(code)].data) && r.session.isFromCache
    ensures r.request.Some? ==> r.request.value == Js.ToUpperCase(code)
    ensures r.request.Some? && outcome.NotOk? ==>
              && r.session.data == None
              && r.session.error == Some(if Js.Truthy(outcome.error) then outcome.error.value else "Failed to fetch currency rate.")
              && Shrunk(r.session.cache, s.cache)
    ensures r.request.Some? && outcome.Raised? ==>
              && r.session.data == None
              && r.session.error == Some(outcome.message.GetOr("An unexpected error occurred."))
              && Shrunk(r.session.cache, s.cache)
    ensures r.request.Some? && outcome.Ok? ==>
              && r.session.data == Some(outcome.payload)
              && !r.session.isFromCache
              && Key(code) in r.session.cache && r.session.cache[Key(code)] == Entry(outcome.payload, later)
  {
    Fetch(s, code, now, later, outcome, CACHE_DURATION, FETCH_FAILED)
  }

  /** The one-hour bound is strict: an entry is served one millisecond before it, and not at it. */
  lemma OneHourBoundary(s: Session<CurrencyRate>, code: string, stored: int, later: int, outcome: Outcome<CurrencyRate>)
    requires Key(code) in s.cache && s.cache[Key(code)].timestamp == stored
    ensures FetchLatestRate(s, code, stored + 3_599_999, later, outcome).request.None?
    ensures FetchLatestRate(s, code, stored + 3_600_000, later, outcome).request.Some?
  {
  }

  /** Storing "EUR" and then fetching "eur" within the hour is served from the cache. */
  lemma LowerCaseLookupHits(s: Session<CurrencyRate>, now: int, later: int, rate: CurrencyRate,
                            now2: int, later2: int, outcome2: Outcome<CurrencyRate>)
    requires now2 - later < CACHE_DURATION
    ensures var first := FetchLatestRate(s, "EUR", now, later, Ok(rate));
            var second := FetchLatestRate(first.session, "eur", now2, later2, outcome2);
            first.request.Some? ==> second.request.None? && second.session.data == Some(rate)
  {
    KeyIgnoresCase();
    SecondFetchHits(s, "EUR", "eur", now, later, rate, now2, later2, outcome2, CACHE_DURATION, FETCH_FAILED);
  }
}

=== FILE: latest_rate_route.dfy ===
/**
 * `GET /api/latest-rate?currency=<code>`: asks the provider for the code's
 * exchange rate to USD and reshapes the answer.
 */
module LatestRateRoute {
  import opened Wrappers
  import Js
  import opened Json
  import opened Proxy

  const RATE_KEY := "Realtime Currency Exchange Rate"
  const INTERNAL_ERROR := "Internal server error during data fetch."

  /** The provider function asked for: its exchange rate to USD. */
  const API_FUNCTION := "CURRENCY_EXCHANGE_RATE"

  function NotFound(code: string): string {
    "Currency code '" + code + "' not found or invalid."
  }

  /** The handler, given the `currency` query parameter and what the upstream request produced. */
  function HandleGet(param: Option<string>, upstream: Upstream): (r: Handled)
    // a missing or empty parameter: 400 before any upstream call
    ensures !Js.Truthy(param) ==> r == Handled(Response(400, ErrorBody(MISSING_PARAM)), None)
    // otherwise exactly one upstream call, for the upper-cased code against USD
    ensures Js.Truthy(param) ==> r.query == Some(QueryFor(API_FUNCTION, param.value))
    // a failed fetch or unparsable body: 500
    ensures Js.Truthy(param) && upstream.Unreachable? ==> r.response == Response(500, ErrorBody(INTERNAL_ERROR))
    // an upstream error report is classified before the payload is looked at
    ensures Js.Truthy(param) && upstream.Parsed? && Classify(upstream.data).Reply? ==>
              r.response == Response(Classify(upstream.data).status, ErrorBody(Classify(upstream.data).error))
    ensures Js.Truthy(param) && upstream.Parsed? && Classify(upstream.data).Throws? ==>
              r.response == Response(500, ErrorBody(INTERNAL_ERROR))
    // no rate object: 404 naming the code as it was given
    ensures Js.Truthy(param) && upstream.Parsed? && Classify(upstream.data).Clean? && !Truthy(Lookup(upstream.data, RATE_KEY)) ==>
              r.response == Response(404, ErrorBody(NotFound(param.value)))
    // success: 200 with the three fields copied from the rate object
    ensures Js.Truthy(param) && upstream.Parsed? && Classify(upstream.data).Clean? && Truthy(Lookup(upstream.data, RATE_KEY)) ==>
              var info := Lookup(upstream.data, RATE_KEY).value;
              r.response == Response(200, RateBody(Prop(info, "1. From_Currency Code"),
                                                  Prop(info, "5. Exchange Rate"),
                                                  Prop(info, "6. Last Refreshed")))
  {
    if !Js.Truthy(param) then Handled(Response(400, ErrorBody(MISSING_PARAM)), None)
    else
      var query := Some(QueryFor(API_FUNCTION, param.value));
      match upstream
      case Unreachable => Handled(Response(500, ErrorBody(INTERNAL_ERROR)), query)
      case Parsed(data) =>
        match Classify(data)
        case Reply(status, error) => Handled(Response(status, ErrorBody(error)), query)
        case Throws => Handled(Response(500, ErrorBody(INTERNAL_ERROR)), query)
        case Clean =>
          var info := Lookup(data, RATE_KEY);
          if !Truthy(info) then Handled(Response(404, ErrorBody(NotFound(param.value))), query)
          else Handled(Response(200, RateBody(Prop(info.value, "1. From_Currency Code"),
                                              Prop(info.value, "5. Exchange Rate"),
                                              Prop(info.value, "6. Last Refreshed"))), query)
  }

  /** The status tells the cases apart: 200 exactly when the provider reported no error and sent a rate object. */
  lemma StatusMeaning(param: Option<string>, upstream: Upstream)
    ensures var status := HandleGet(param, upstream).response.status;
            && (status == 200 <==>
                  Js.Truthy(param) && upstream.Parsed? && Classify(upstream.data).Clean?
                  && Truthy(Lookup(upstream.data, RATE_KEY)))
            && (status == 404 <==>
                  Js.Truthy(param) && upstream.Parsed? && Classify(upstream.data).Clean?
                  && !Truthy(Lookup(upstream.data, RATE_KEY)))
            && (status == 429 <==>
                  Js.Truthy(param) && upstream.Parsed? && Classify(upstream.data) == Reply(429, RATE_LIMITED))
            && status in {200, 400, 404, 429, 500}
  {
  }

  /** A valid EUR answer from the provider becomes a 200 with its three fields. */
  lemma EurScenario()
    ensures var info := Obj([Member("1. From_Currency Code", Str("EUR")),
                             Member("5. Exchange Rate", Str("1.0850")),
                             Member("6. Last Refreshed", Str("2024-01-15 16:00:01"))]);
            HandleGet(Some("EUR"), Parsed([Member(RATE_KEY, info)])).response
              == Response(200, RateBody(Some(Str("EUR")), Some(Str("1.0850")), Some(Str("2024-01-15 16:00:01"))))
  {
  }
}

=== FILE: proxy.dfy ===
/**
 * What the two proxy routes share: their request to the upstream provider,
 * their response shapes, and the classification of an upstream error report
 * (the `Error Message` / `Note` block, copied verbatim in both routes).
 */
module Proxy {
  import opened Wrappers
  import Js
  import opened CurrencyTypes
  import opened Json

  const MISSING_PARAM := "Missing currency query parameter."
  const RATE_LIMITED := "Alpha Vantage API rate limit exceeded. Try later."
  const FAILED_PREFIX := "API request failed: "
  const UNKNOWN_ERROR := "Unknown API error."

  const ERROR_MESSAGE_KEY := "Error Message"
  const NOTE_KEY := "Note"

  /** The upstream query string's function, source and target currency. */
  datatype Query = Query(apiFunction: string, fromCurrency: string, toCurrency: string)

  /** The provider query a route makes for a code: the code upper-cased, always against USD. */
  function QueryFor(apiFunction: string, code: string): (q: Query)
    ensures q.apiFunction == apiFunction && q.toCurrency == "USD"
    ensures q.fromCurrency == Js.ToUpperCase(code)
  {
    Query(apiFunction, Js.ToUpperCase(code), "USD")
  }

  /** What the upstream request produced: the parsed top-level object, or a failure to fetch or parse it. */
  datatype Upstream = Parsed(data: seq<Member>) | Unreachable

  datatype Body =
    | ErrorBody(error: string)
    | RateBody(currencyCode: Option<Json>, usdRate: Option<Json>, lastRefreshed: Option<Json>)
    | SeriesBody(seriesCode: string, rates: seq<HistoricalRate>)

  datatype Response = Response(status: int, body: Body)

  /** A route's response, and the upstream query it issued, if any. */
  datatype Handled = Handled(response: Response, query: Option<Query>)

  /** How the error block ends: no error reported, a reply, or a `TypeError` (the message is not a string). */
  datatype Verdict = Clean | Reply(status: int, error: string) | Throws

  /** The phrases by which the provider reports an exhausted quota. */
  predicate RateLimitText(m: string) {
    Js.Includes(m, "API call frequency") || Js.Includes(m, "25 requests per day")
  }

  /** `m` is the string the error block reports: `Error Message` when truthy, else `Note`. */
  predicate Reported(data: seq<Member>, m: string) {
    var em := Lookup(data, ERROR_MESSAGE_KEY);
    var note := Lookup(data, NOTE_KEY);
    || (Truthy(em) && em == Some(Str(m)))
    || (!Truthy(em) && Truthy(note) && note == Some(Str(m)))
  }

  /** `data["Error Message"] || data["Note"] || "Unknown API error."`. */
  function ErrorValue(data: seq<Member>): (v: Json)
    // a truthy `Error Message` wins, then a truthy `Note`, then the fixed text
    ensures Truthy(Lookup(data, ERROR_MESSAGE_KEY)) ==> Some(v) == Lookup(data, ERROR_MESSAGE_KEY)
    ensures !Truthy(Lookup(data, ERROR_MESSAGE_KEY)) && Truthy(Lookup(data, NOTE_KEY)) ==> Some(v) == Lookup(data, NOTE_KEY)
    ensures !Truthy(Lookup(data, ERROR_MESSAGE_KEY)) && !Truthy(Lookup(data, NOTE_KEY)) ==> v == Str(UNKNOWN_ERROR)
    // whichever it is, the value is truthy
    ensures Truthy(Some(v))
  {
    var em := Lookup(data, ERROR_MESSAGE_KEY);
    var note := Lookup(data, NOTE_KEY);
    if Truthy(em) then em.value else if Truthy(note) then note.value else Str(UNKNOWN_ERROR)
  }

  /** The error block both routes run before looking at the payload. */
  function Classify(data: seq<Member>): (v: Verdict)
    // the block is skipped exactly when neither field is truthy
    ensures v.Clean? <==> !Truthy(Lookup(data, ERROR_MESSAGE_KEY)) && !Truthy(Lookup(data, NOTE_KEY))
    // a reported string: 429 with the fixed text on a quota phrase, else 400 quoting it
    ensures forall m :: Reported(data, m) ==>
              v == (if RateLimitText(m) then Reply(429, RATE_LIMITED) else Reply(400, FAILED_PREFIX + m))
    // a reported value that is not a string has no `includes`: the handler throws
    ensures v.Throws? <==> !v.Clean? && !ErrorValue(data).Str?
    ensures v.Reply? ==> v.status == 429 || v.status == 400
  {
    if !Truthy(Lookup(data, ERROR_MESSAGE_KEY)) && !Truthy(Lookup(data, NOTE_KEY)) then Clean
    else match ErrorValue(data)
      case Str(m) => if RateLimitText(m) then Reply(429, RATE_LIMITED) else Reply(400, FAILED_PREFIX + m)
      case _ => Throws
  }

  /** When both fields carry text, the `Error Message` text is the one reported. */
  lemma ErrorMessagePreferred(data: seq<Member>, m1: string, m2: string)
    requires Lookup(data, ERROR_MESSAGE_KEY) == Some(Str(m1)) && m1 != ""
    requires Lookup(data, NOTE_KEY) == Some(Str(m2))
    ensures Reported(data, m1)
    ensures m2 != m1 ==> !Reported(data, m2)
  {
  }
}

=== FILE: rate_cache.dfy ===
/**
 * The time-boxed response cache shared (by copy) between the latest-rate hook,
 * the historical-data hook and the currency search form: a map from the
 * upper-cased currency code to the payload and the millisecond clock reading at
 * which it was stored. A read is a hit while the entry is younger than the TTL;
 * a read that finds a stale entry deletes it.
 */
module RateCache {
  import opened Wrappers
  import Js

  datatype Entry<T> = Entry(data: T, timestamp: int)

  type Cache<T> = map<string, Entry<T>>

  /** What a read returns: the cached payload on a hit, and the cache after lazy eviction. */
  datatype Lookup<T> = Lookup(value: Option<T>, cache: Cache<T>)

  /** Both reads and writes key the cache by the upper-cased code. */
  function Key(code: string): string {
    Js.ToUpperCase(code)
  }

  /** An entry is still usable at clock reading `now` while strictly younger than `ttl`. */
  predicate Fresh<T>(e: Entry<T>, now: int, ttl: int) {
    now - e.timestamp < ttl
  }

  /** `b` is `a` with at most some entries removed: nothing added, nothing rewritten. */
  ghost predicate Shrunk<T>(b: Cache<T>, a: Cache<T>) {
    b.Keys <= a.Keys && forall k :: k in b ==> b[k] == a[k]
  }

  /** `getCachedData(code)` at clock reading `now`. */
  function Get<T>(cache: Cache<T>, code: string, now: int, ttl: int): (r: Lookup<T>)
    // a hit exactly when the normalised key holds a fresh entry, and then it returns that entry's payload
    ensures r.value.Some? <==> Key(code) in cache && Fresh(cache[Key(code)], now, ttl)
    ensures r.value.Some? ==> r.value.value == cache[Key(code)].data
    // afterwards the key is present exactly when the read was a hit, with its entry untouched
    ensures Key(code) in r.cache <==> r.value.Some?
    ensures Key(code) in r.cache ==> r.cache[Key(code)] == cache[Key(code)]
    // no other key is ever touched
    ensures r.cache - {Key(code)} == cache - {Key(code)}
    ensures Shrunk(r.cache, cache)
  {
    var k := Key(code);
    if k in cache && Fresh(cache[k], now, ttl) then Lookup(Some(cache[k].data), cache)
    else if k in cache then Lookup(None, cache - {k})
    else Lookup(None, cache)
  }

  /** `setCachedData(code, data)` at clock reading `now`. */
  function Put<T>(cache: Cache<T>, code: string, data: T, now: int): (r: Cache<T>)
    // the normalised key now holds the payload stamped with `now`, whatever was there before
    ensures Key(code) in r && r[Key(code)] == Entry(data, now)
    // no other key is touched
    ensures r - {Key(code)} == cache - {Key(code)}
    ensures r.Keys == cache.Keys + {Key(code)}
  {
    cache[Key(code) := Entry(data, now)]
  }

  /** A read of a key that is not cached leaves the cache as it was. */
  lemma AbsentKeyUnchanged<T>(cache: Cache<T>, code: string, now: int, ttl: int)
    requires Key(code) !in cache
    ensures Get(cache, code, now, ttl) == Lookup(None, cache)
  {
    assert Get(cache, code, now, ttl).cache == cache;
  }

  /** A stale entry is reported as a miss and removed; every other entry stays. */
  lemma StaleEntryEvicted<T>(cache: Cache<T>, code: string, now: int, ttl: int)
    requires Key(code) in cache && now - cache[Key(code)].timestamp >= ttl
    ensures Get(cache, code, now, ttl) == Lookup(None, cache - {Key(code)})
  {
  }

  /**
   * Round trip: a store followed by a read, under any spelling of the same
   * code, before the TTL has elapsed returns exactly the stored payload and
   * leaves the cache as the store made it.
   */
  lemma StoreThenGet<T>(cache: Cache<T>, code: string, other: string, data: T, stored: int, now: int, ttl: int)
    requires Key(other) == Key(code)
    requires now - stored < ttl
    ensures Get(Put(cache, code, data, stored), other, now, ttl) == Lookup(Some(data), Put(cache, code, data, stored))
  {
  }

  /** Once the TTL has elapsed since the store, the same read misses and drops the entry. */
  lemma StoreThenExpire<T>(cache: Cache<T>, code: string, other: string, data: T, stored: int, now: int, ttl: int)
    requires Key(other) == Key(code)
    requires now - stored >= ttl
    ensures Get(Put(cache, code, data, stored), other, now, ttl).value == None
    ensures Key(code) !in Get(Put(cache, code, data, stored), other, now, ttl).cache
  {
  }

  /** Reading twice at the same instant is the same as reading once. */
  lemma GetIdempotent<T>(cache: Cache<T>, code: string, now: int, ttl: int)
    ensures var first := Get(cache, code, now, ttl);
            Get(first.cache, code, now, ttl) == first
  {
  }

  /** Keys are case-insensitive: storing "EUR" and reading "eur" meet at the same entry. */
  lemma KeyIgnoresCase()
    ensures Key("eur") == Key("EUR") == "EUR"
  {
    assert Key("eur") == ['E', 'U', 'R'];
    assert Key("EUR") == ['E', 'U', 'R'];
  }
}

=== FILE: wrappers.dfy ===
/** Optional values, standing for JavaScript's `null` / `undefined` alternatives. */
module Wrappers {

  datatype Option<+T> = None | Some(value: T) {

    /** The wrapped value, or `default` when there is none (JavaScript's `x ?? default`). */
    function GetOr(default: T): T {
      match this
      case Some(v) => v
      case None => default
    }
  }
}
